=== FILE: README.md ===
# HandlerTaskTimer in Dafny

A model of `HandlerTaskTimer`, the tag-addressed task timer of AndroidDeveloperTools, and
proofs about it. A `Builder` collects a tag, an initial delay and a period with their
time unit, a countdown bound (`takeWhile`), a tick consumer and/or a completion action,
and one of three modes: COUNT_DOWN, LOOP_EXECUTE, DELAY_EXECUTE. `start()` registers the
builder under its tag, converts and clamps its values, and posts its first message on
the main-thread `Handler`. Every delivered message runs the builder's step. A countdown
decrements, shows the count and posts again, and on reaching zero completes and cancels.
A loop posts again and runs its action. A one-shot runs its action and cancels. The
facade's `cancel`, `pause` and `resume` find a builder by tag.

The Java version is the primary one; the Kotlin port is modelled as a variant.

How the model is built:

- **Handler** (`MessageQueue`). A sequence of `Msg(due, id)` kept ordered by due time.
  Inserting walks past every entry due no later, so ties are delivered first in, first
  out. `removeCallbacksAndMessages` is `RemoveAll` and `hasMessages` is `Has`.
- **Units and setters** (`Units`, `TaskBuilder`). `TimeUnit.toMillis` truncates for
  units finer than a millisecond and multiplies for coarser ones. Setters form a
  `Setter` datatype, applied in order.
- **Timer state** (`TaskTimer`). One record holds the tag map, the builder table keyed by
  identity, the pending queue, the clock and a trace of observed callbacks.
  - `Ticked(id, value, at)` is the tick consumer being called.
  - `Acted(id, at)` is the action being called.
  - A callback invoked during a delivery may issue one facade command (a `Reaction`).
    This is how a `cancel` from inside an action is modelled.
  - `Fire` delivers the earliest message. The clock moves to its due time if it is
    not there yet.
- **Lemmas.**
  - `TimerFacts`: what one operation does.
  - `TimerRuns`: whole runs of a single builder.
  - `TimerInvariants`: what every delivery preserves.
  - `TimerFiring`: one delivery among other builders' messages.
  - `TimerSharing`: a whole countdown run among other builders' messages (the main
    screen starts two timers at once), through the countdown's own events `Own`.
  - `TimerWellFormed`: every identity in use stays below the next one handed out,
    so `newBuilder` never reuses a live identity.
  - `TimerScenarios`: worked configurations like those of the demo screens.
- **Kotlin port** (`KotlinTimer`). It reads its `lateinit` tag before registering, so
  `KStart` throws when a mode is set and the tag is not. Its facade takes a non-null tag and returns the timer, which
  here is the returned state.

Three behaviours of the code are kept as they are:

- **Completion timing.** A countdown's completion runs on the delivery after the one
  that shows 0, one period later (`performCountDown`, lines 290-301 of the Java file).
  `TimerScenarios.CountDownThreeSeconds` shows ticks at 0, 1, 2 and 3 s and the
  completion at 4 s.
- **Registration before validation.** `start` registers the tag before it checks the
  callbacks (lines 239 and 244-256), and `TimerFacts.StartWithoutCallback` states this.
- **Negative delay.** `Handler` treats a negative delay as 0, and
  `TaskTimer.SendDelayed` does the same.

## Model

| member | source | states |
|---|---|---|
| Units.ToMillis | java-app/src/main/java/com/android/developer/tools/handler/HandlerTaskTimer.java:240-241 | converting a duration to milliseconds keeps its sign (non-negative stays non-negative, non-positive stays non-positive) and leaves milliseconds unchanged |
| MessageQueue.HasIffCount | java-app/src/main/java/com/android/developer/tools/handler/HandlerTaskTimer.java:211 | a builder has a pending message exactly when its count of pending messages is positive |
| MessageQueue.Has | java-app/src/main/java/com/android/developer/tools/handler/HandlerTaskTimer.java:211 | `hasMessages(RUNNING_WHAT, obj)`: some pending message belongs to the builder; `HasIffCount` states it is the same as a positive count |
| MessageQueue.Insert | java-app/src/main/java/com/android/developer/tools/handler/HandlerTaskTimer.java:259 | posting a message adds exactly one entry, keeps the queue ordered by due time, and the new head is either the old head or the new message |
| MessageQueue.InsertFifo | java-app/src/main/java/com/android/developer/tools/handler/HandlerTaskTimer.java:259 | a posted message goes after every message due no later than it and before every message due later; messages due no later keep their positions and later ones move back by one |
| MessageQueue.InsertCounts | java-app/src/main/java/com/android/developer/tools/handler/HandlerTaskTimer.java:212 | posting for a builder adds one pending message for it and leaves every other builder's count unchanged |
| MessageQueue.RemoveAll | java-app/src/main/java/com/android/developer/tools/handler/HandlerTaskTimer.java:204 | after removing a builder's messages none of them remain, the queue stays ordered, and every other builder's messages stay with the same due times and multiplicities |
| MessageQueue.RemoveAllCounts | java-app/src/main/java/com/android/developer/tools/handler/HandlerTaskTimer.java:226 | removing a builder's messages zeroes its count and leaves every other builder's count unchanged |
| MessageQueue.RemoveAllIdle | java-app/src/main/java/com/android/developer/tools/handler/HandlerTaskTimer.java:204 | removing messages for a builder that has none leaves the queue unchanged |
| TaskBuilder.Apply | java-app/src/main/java/com/android/developer/tools/handler/HandlerTaskTimer.java:105-198 | each setter's effect on the fields: `period(p, u)` sets both period and initial delay, `initialDelay(d, u)` only the delay, `period(p, d, u)` each separately, every timing setter overwrites the unit, `accept` sets the callbacks it is given, the mode setters set the mode |
| TaskBuilder.LastUnitWins | kotlin-app/src/main/java/com/android/developer/tools/handler/HandlerTaskTimer.kt:73-104 | after any chain of setters the unit is the one given by the last timing setter, so it applies to both the delay and the period |
| TaskBuilder.ApplyAll | java-app/src/main/java/com/android/developer/tools/handler/HandlerTaskTimer.java:105-198 | a chain of setter calls applied leftmost first; `ApplyAllSnoc` and `LastUnitWins` relate it to its last call and its last unit |
| TaskBuilder.Clamp | java-app/src/main/java/com/android/developer/tools/handler/HandlerTaskTimer.java:240-242 | the values `start` stores: both durations converted by the unit and raised to at least 0, the count raised to at least 0, every other field kept |
| TaskTimer.NewBuilder | java-app/src/main/java/com/android/developer/tools/handler/HandlerTaskTimer.java:52-54 | a new builder has every field unset and nothing else in the timer changes; in a well-formed timer its identity is fresh (no builder, tag or pending message refers to it) and the timer stays well formed |
| TaskTimer.Configure | java-app/src/main/java/com/android/developer/tools/handler/HandlerTaskTimer.java:105-198 | one setter call on a builder held by the timer; `TimerFacts.ConfigureAllApplies` states a chain of them |
| TimerFacts.ConfigureAllApplies | java-app/src/main/java/com/android/developer/tools/handler/HandlerTaskTimer.java:105-198 | setter calls on a builder inside the timer change its fields exactly as `ApplyAll` does, and change no other builder, tag, message, event or clock |
| TaskTimer.SendDelayed | java-app/src/main/java/com/android/developer/tools/handler/HandlerTaskTimer.java:259 | `sendMessageDelayed`, with a negative delay treated as 0; `TimerInvariants.SendDelayedCounts` states it adds one pending message for the builder only |
| TaskTimer.Tick | java-app/src/main/java/com/android/developer/tools/handler/HandlerTaskTimer.java:320-326 | `acceptTakeWhile`: with a consumer, the current count is shown at the current time, else nothing; `StartSends`, `ResumeWhenIdle` and `FireCountDownTick` state where it is called |
| TaskTimer.Start | java-app/src/main/java/com/android/developer/tools/handler/HandlerTaskTimer.java:232-261 | `start`; its cases are stated by `StartWithoutModeOrTag`, `StartRegisters`, `StartClamps`, `StartWithoutCallback`, `StartSends` and `StartEnqueues` |
| TaskTimer.Launch | java-app/src/main/java/com/android/developer/tools/handler/HandlerTaskTimer.java:240-259 | the part of `start` after the tag is put: clamp, then show and post only with the mode's callback; stated by `StartClamps`, `StartWithoutCallback` and `StartSends` |
| TaskTimer.BuilderPause | java-app/src/main/java/com/android/developer/tools/handler/HandlerTaskTimer.java:203-205 | `Builder.pause`; `PauseDropsMessages` states that none of its messages remain and nothing else changes |
| TaskTimer.BuilderResume | java-app/src/main/java/com/android/developer/tools/handler/HandlerTaskTimer.java:210-217 | `Builder.resume`; `ResumeWhilePending`, `ResumeWhenIdle` and `ResumeEnqueuesOne` state both branches |
| TaskTimer.BuilderCancel | java-app/src/main/java/com/android/developer/tools/handler/HandlerTaskTimer.java:222-227 | `Builder.cancel`; `CancelUnregisters`, `CancelRemovesOtherHolder` and `CancelTwiceBuilder` state its effect and idempotence |
| TaskTimer.Cancel | java-app/src/main/java/com/android/developer/tools/handler/HandlerTaskTimer.java:56-64 | facade `cancel(tag)`; `FacadeIgnoresUnknownTag`, `FacadeDelegates` and `CancelTwice` state it |
| TaskTimer.Pause | java-app/src/main/java/com/android/developer/tools/handler/HandlerTaskTimer.java:66-74 | facade `pause(tag)`; `FacadeIgnoresUnknownTag` and `FacadeDelegates` state it |
| TaskTimer.Resume | java-app/src/main/java/com/android/developer/tools/handler/HandlerTaskTimer.java:76-84 | facade `resume(tag)`; `FacadeIgnoresUnknownTag` and `FacadeDelegates` state it |
| TaskTimer.ExecuteTask | java-app/src/main/java/com/android/developer/tools/handler/HandlerTaskTimer.java:270-288 | `executeTask`, the step of the builder's mode; `ExecuteBound`, `ExecuteKeepsOrder`, `ExecuteAbout` and `ExecuteKeepsAtMostOne` state what it keeps |
| TaskTimer.PerformCountDown | java-app/src/main/java/com/android/developer/tools/handler/HandlerTaskTimer.java:290-301 | `performCountDown`; `FireCountDownTick`, `FireCountDownDone` and `CountDownBound` state both branches |
| TaskTimer.PerformLoopExecute | java-app/src/main/java/com/android/developer/tools/handler/HandlerTaskTimer.java:303-308 | `performLoopExecute`, which posts before running the action; `FireLoop`, `LoopBound` and `LoopCancelledInAction` state it |
| TaskTimer.PerformActionExecute | java-app/src/main/java/com/android/developer/tools/handler/HandlerTaskTimer.java:310-318 | `performActionExecute`: the action runs only if set; `TimerFiring.ActionAbout` states it records only this builder's event and registers no tag |
| TaskTimer.Fire | java-app/src/main/java/com/android/developer/tools/handler/HandlerTaskTimer.java:21-29 | the looper's delivery of the earliest message to `executeTask`; `FireIsDelivery`, `FireKeepsOrder` and `FireKeepsWellFormed` state it |
| TimerFacts.StartWithoutModeOrTag | java-app/src/main/java/com/android/developer/tools/handler/HandlerTaskTimer.java:232-238 | `start` with no mode or no tag changes nothing |
| TimerFacts.StartRegisters | java-app/src/main/java/com/android/developer/tools/handler/HandlerTaskTimer.java:239-240 | with a mode and a tag, `start` maps the tag to this builder; when the unit is missing it throws after that and nothing else changes |
| TimerFacts.StartClamps | java-app/src/main/java/com/android/developer/tools/handler/HandlerTaskTimer.java:240-242 | after `start`, initial delay and period are the unit's conversion to milliseconds clamped at 0, the count is clamped at 0, all three are non-negative, and no other field of any builder changes |
| TimerFacts.StartWithoutCallback | java-app/src/main/java/com/android/developer/tools/handler/HandlerTaskTimer.java:243-256 | a countdown without a tick consumer, or a loop or one-shot without an action, is registered but posts nothing and shows nothing |
| TimerFacts.StartSends | java-app/src/main/java/com/android/developer/tools/handler/HandlerTaskTimer.java:248-259 | a complete configuration posts one message due the clamped initial delay from now and, for a countdown, shows the clamped count once |
| TimerFacts.StartEnqueues | java-app/src/main/java/com/android/developer/tools/handler/HandlerTaskTimer.java:259 | a complete `start` adds exactly one pending message for the builder and none for any other |
| TimerFacts.StartShadowsSameTag | java-app/src/main/java/com/android/developer/tools/handler/HandlerTaskTimer.java:239 | starting a second builder under a tag already in use remaps the tag to it; the first builder's pending message stays |
| TimerFacts.PauseDropsMessages | java-app/src/main/java/com/android/developer/tools/handler/HandlerTaskTimer.java:203-205 | `pause` removes all of the builder's pending messages, keeps every other builder's messages, and changes no builder, tag, trace or clock |
| TimerFacts.ResumeWhilePending | java-app/src/main/java/com/android/developer/tools/handler/HandlerTaskTimer.java:210-211 | `resume` with a message pending changes nothing |
| TimerFacts.ResumeWhenIdle | java-app/src/main/java/com/android/developer/tools/handler/HandlerTaskTimer.java:210-217 | `resume` with nothing pending posts one message a period (not the initial delay) from now and, for a countdown with a tick consumer, shows the current count without decrementing it |
| TimerFacts.ResumeEnqueuesOne | java-app/src/main/java/com/android/developer/tools/handler/HandlerTaskTimer.java:211-212 | `resume` with nothing pending leaves exactly one message pending for the builder |
| TimerFacts.PauseThenResume | java-app/src/main/java/com/android/developer/tools/handler/HandlerTaskTimer.java:203-217 | pausing and then resuming leaves exactly one message, due a period from now, and the builder unchanged |
| TimerFacts.CancelUnregisters | java-app/src/main/java/com/android/developer/tools/handler/HandlerTaskTimer.java:222-227 | `cancel` removes the builder's tag from the map and all its messages; other builders' messages, the builders, the trace and the clock are unchanged |
| TimerFacts.CancelRemovesOtherHolder | java-app/src/main/java/com/android/developer/tools/handler/HandlerTaskTimer.java:222-224 | `cancel` removes its tag's entry even when the tag now maps to another builder |
| TimerFacts.CancelTwiceBuilder | java-app/src/main/java/com/android/developer/tools/handler/HandlerTaskTimer.java:222-227 | cancelling a builder twice is the same as cancelling it once |
| TimerFacts.FacadeIgnoresUnknownTag | java-app/src/main/java/com/android/developer/tools/handler/HandlerTaskTimer.java:56-84 | facade `cancel`, `pause` and `resume` with a null or unregistered tag change nothing |
| TimerFacts.CancelTwice | java-app/src/main/java/com/android/developer/tools/handler/HandlerTaskTimer.java:56-64 | facade `cancel` twice with the same tag is the same as once |
| TimerFacts.FacadeDelegates | java-app/src/main/java/com/android/developer/tools/handler/HandlerTaskTimer.java:56-84 | for a registered tag, the facade calls act on the builder the tag maps to |
| TimerRuns.CountDownTicksShape | java-app/src/main/java/com/android/developer/tools/handler/HandlerTaskTimer.java:292-295 | the ticks a countdown shows from a count `k` are `k - 1`, ..., `0`, the `i`-th one `i` periods after the first |
| TimerRuns.CountDownStep | java-app/src/main/java/com/android/developer/tools/handler/HandlerTaskTimer.java:290-297 | alone in the queue, a countdown delivery with a count left decrements it by one, shows the new count and posts the next message a period later |
| TimerRuns.CountDownLast | java-app/src/main/java/com/android/developer/tools/handler/HandlerTaskTimer.java:298-300 | alone in the queue, a countdown delivery at zero runs the action once if there is one, leaves nothing pending and unregisters the tag |
| TimerRuns.CountDownFromMessage | java-app/src/main/java/com/android/developer/tools/handler/HandlerTaskTimer.java:290-301 | a lone countdown with count `k` shows `k - 1` down to `0` one period apart, then completes one period after the 0 |
| TimerRuns.CountDownEnds | java-app/src/main/java/com/android/developer/tools/handler/HandlerTaskTimer.java:290-301 | after those `k + 1` deliveries nothing is pending, the count is 0 and the tag is gone |
| TimerRuns.StartCountDownAlone | java-app/src/main/java/com/android/developer/tools/handler/HandlerTaskTimer.java:232-259 | starting a complete countdown with nothing else pending registers it, stores the clamped fields, shows the bound and posts one message |
| TimerRuns.CountDownFromStart | java-app/src/main/java/com/android/developer/tools/handler/HandlerTaskTimer.java:248-301 | a countdown started alone (nothing else pending) with bound `N` shows `N`, `N - 1`, ..., `0`, completes at most once one period after the 0, ends with count 0, nothing pending and the tag unregistered |
| TimerRuns.LoopStep | java-app/src/main/java/com/android/developer/tools/handler/HandlerTaskTimer.java:303-308 | alone in the queue, a loop delivery posts its next message a period later and then runs the action; tags and builders are unchanged |
| TimerRuns.LoopFromMessage | java-app/src/main/java/com/android/developer/tools/handler/HandlerTaskTimer.java:303-308 | a lone loop runs its action once per delivery, a period apart, keeps its tag and always has exactly its next message pending |
| TimerRuns.LoopCancelledInAction | java-app/src/main/java/com/android/developer/tools/handler/HandlerTaskTimer.java:303-308 | a `cancel` issued from inside a loop's action removes the message just posted: nothing stays pending and the tag is gone |
| TimerRuns.CountDownCancelledInTick | java-app/src/main/java/com/android/developer/tools/handler/HandlerTaskTimer.java:290-296 | with any other messages pending, a `cancel` of its own tag issued from inside a countdown's tick consumer unregisters the tag and drops the builder's earlier messages, but the one message posted after the tick survives: exactly one stays pending |
| TimerInvariants.ReactShrinks | java-app/src/main/java/com/android/developer/tools/handler/HandlerTaskTimer.java:56-74 | a callback that cancels, pauses or does nothing never adds a pending message and changes no builder |
| TimerInvariants.CountDownBound | java-app/src/main/java/com/android/developer/tools/handler/HandlerTaskTimer.java:290-301 | unless the callback issues a `resume`, a countdown delivery posts at most one message, for itself |
| TimerInvariants.LoopBound | java-app/src/main/java/com/android/developer/tools/handler/HandlerTaskTimer.java:303-308 | unless the action issues a `resume`, a loop delivery posts at most one message, for itself |
| TimerInvariants.ExecuteBound | java-app/src/main/java/com/android/developer/tools/handler/HandlerTaskTimer.java:270-288 | unless the callback issues a `resume`, `executeTask` posts at most one message, for the builder delivered to |
| TimerInvariants.FireNoGrowth | java-app/src/main/java/com/android/developer/tools/handler/HandlerTaskTimer.java:21-29 | unless a callback resumes, a delivery consumes one message and posts at most one, so no builder's pending count grows |
| TimerInvariants.FireKeepsAtMostOne | java-app/src/main/java/com/android/developer/tools/handler/HandlerTaskTimer.java:21-29 | if every builder has at most one pending message, it still does after any delivery, whatever its callbacks command, except a countdown tick whose consumer resumes that same countdown |
| TimerInvariants.StartKeepsAtMostOne | java-app/src/main/java/com/android/developer/tools/handler/HandlerTaskTimer.java:259 | starting a builder with nothing pending keeps at most one pending message per builder |
| TimerInvariants.PauseKeepsAtMostOne | java-app/src/main/java/com/android/developer/tools/handler/HandlerTaskTimer.java:203-205 | `pause` keeps at most one pending message per builder |
| TimerInvariants.CancelKeepsAtMostOne | java-app/src/main/java/com/android/developer/tools/handler/HandlerTaskTimer.java:222-227 | `cancel` keeps at most one pending message per builder |
| TimerInvariants.ResumeKeepsAtMostOne | java-app/src/main/java/com/android/developer/tools/handler/HandlerTaskTimer.java:210-217 | `resume` posts only when nothing is pending, so it keeps at most one pending message per builder |
| TimerInvariants.FacadeKeepsAtMostOne | java-app/src/main/java/com/android/developer/tools/handler/HandlerTaskTimer.java:56-84 | the facade's `cancel`, `pause` and `resume` keep at most one pending message per builder |
| TimerInvariants.ReactKeepsAtMostOne | java-app/src/main/java/com/android/developer/tools/handler/HandlerTaskTimer.java:56-84 | whatever facade command a callback issues, every builder keeps at most one pending message |
| TimerInvariants.ReactKeepsIdle | java-app/src/main/java/com/android/developer/tools/handler/HandlerTaskTimer.java:56-84 | a facade command that does not resume a builder leaves it with nothing pending if it had nothing pending |
| TimerInvariants.SendDelayedKeepsAtMostOne | java-app/src/main/java/com/android/developer/tools/handler/HandlerTaskTimer.java:259 | posting for a builder with nothing pending keeps at most one pending message per builder |
| TimerInvariants.ActionKeepsAtMostOne | java-app/src/main/java/com/android/developer/tools/handler/HandlerTaskTimer.java:310-318 | running an action, whatever it commands, keeps at most one pending message per builder |
| TimerInvariants.TickKeepsAtMostOne | java-app/src/main/java/com/android/developer/tools/handler/HandlerTaskTimer.java:292-296 | a countdown tick whose consumer does not resume that countdown keeps at most one pending message per builder |
| TimerInvariants.ExecuteKeepsAtMostOne | java-app/src/main/java/com/android/developer/tools/handler/HandlerTaskTimer.java:270-288 | `executeTask` for the builder whose message was just consumed keeps at most one pending message per builder, unless its tick consumer resumes it |
| TimerInvariants.ResumeFromTickDoubles | java-app/src/main/java/com/android/developer/tools/handler/HandlerTaskTimer.java:292-295 | a tick consumer that resumes its own countdown leaves two messages pending for it, so the one case `FireKeepsAtMostOne` excludes does break the invariant |
| TimerInvariants.ExecuteKeepsOrder | java-app/src/main/java/com/android/developer/tools/handler/HandlerTaskTimer.java:270-288 | whatever the callbacks do, `executeTask` keeps the queue ordered by due time |
| TimerInvariants.FireKeepsOrder | java-app/src/main/java/com/android/developer/tools/handler/HandlerTaskTimer.java:21-29 | every delivery keeps the queue ordered by due time, so the earliest message is always delivered next |
| TimerInvariants.StartKeepsOrder | java-app/src/main/java/com/android/developer/tools/handler/HandlerTaskTimer.java:259 | `start` keeps the queue ordered by due time |
| TimerFiring.FireIsDelivery | java-app/src/main/java/com/android/developer/tools/handler/HandlerTaskTimer.java:21-29 | a delivery hands the earliest message to its builder's `executeTask`, with the clock at or after both the old time and the message's due time |
| TimerFiring.FireCountDownTick | java-app/src/main/java/com/android/developer/tools/handler/HandlerTaskTimer.java:290-297 | when the callback issues no command: with other messages pending, a countdown delivery decrements by exactly one, shows the new count, posts a period after delivery, and changes nothing else |
| TimerFiring.FireCountDownTickCounts | java-app/src/main/java/com/android/developer/tools/handler/HandlerTaskTimer.java:292-296 | when the callback issues no command: a countdown delivery with a count left leaves every builder's pending count as it was |
| TimerFiring.FireCountDownDone | java-app/src/main/java/com/android/developer/tools/handler/HandlerTaskTimer.java:298-300 | when the action issues no command: a countdown delivery at zero runs the action if any, leaves nothing of it pending and unregisters its tag |
| TimerFiring.FireLoop | java-app/src/main/java/com/android/developer/tools/handler/HandlerTaskTimer.java:303-308 | when the action issues no command: a loop delivery posts its next message a period after delivery before running its action, and keeps its tag |
| TimerFiring.FireLoopCounts | java-app/src/main/java/com/android/developer/tools/handler/HandlerTaskTimer.java:303-308 | when the action issues no command: a loop delivery leaves every builder's pending count as it was |
| TimerFiring.FireDelay | java-app/src/main/java/com/android/developer/tools/handler/HandlerTaskTimer.java:281-284 | whatever its action does, a one-shot delivery runs the action, then nothing of it is pending and its tag is unregistered |
| TimerFiring.ExecuteAbout | java-app/src/main/java/com/android/developer/tools/handler/HandlerTaskTimer.java:270-288 | when the callback issues no command: a delivery records only events of the builder delivered to and registers no tag |
| TimerFiring.FireDormant | java-app/src/main/java/com/android/developer/tools/handler/HandlerTaskTimer.java:21-29 | when the callback issues no command: a builder with nothing pending gets no event, no message and no tag from a delivery |
| TimerFiring.StaysDormant | java-app/src/main/java/com/android/developer/tools/handler/HandlerTaskTimer.java:21-29 | a builder with nothing pending stays silent, with nothing pending, through any number of deliveries |
| TimerFiring.DelayRunsOnce | java-app/src/main/java/com/android/developer/tools/handler/HandlerTaskTimer.java:281-284 | a one-shot runs its action exactly once, at its delivery, and never again; its tag stays unregistered |
| TimerWellFormed.InitialWellFormed | java-app/src/main/java/com/android/developer/tools/handler/HandlerTaskTimer.java:19 | the empty registry is well formed: every identity in use is below the next one handed out |
| TimerWellFormed.NewBuilderIsFresh | java-app/src/main/java/com/android/developer/tools/handler/HandlerTaskTimer.java:52-54 | in a well-formed timer a new builder's identity is used by no builder, tag or message, the timer stays well formed, and two successive new builders differ |
| TimerWellFormed.FireKeepsWellFormed | java-app/src/main/java/com/android/developer/tools/handler/HandlerTaskTimer.java:21-29 | every delivery, whatever its callbacks command, keeps the timer well formed |
| TimerWellFormed.RunKeepsWellFormed | java-app/src/main/java/com/android/developer/tools/handler/HandlerTaskTimer.java:21-29 | any number of deliveries keep the timer well formed |
| TimerWellFormed.StartKeepsWellFormed | java-app/src/main/java/com/android/developer/tools/handler/HandlerTaskTimer.java:232-261 | `start` keeps the timer well formed |
| TimerWellFormed.FacadeKeepsWellFormed | java-app/src/main/java/com/android/developer/tools/handler/HandlerTaskTimer.java:56-84 | the facade's `cancel`, `pause` and `resume` keep the timer well formed |
| TimerWellFormed.KStartKeepsWellFormed | kotlin-app/src/main/java/com/android/developer/tools/handler/HandlerTaskTimer.kt:198-222 | the Kotlin `start` keeps the timer well formed |
| TimerSharing.ExecuteSameExcept | java-app/src/main/java/com/android/developer/tools/handler/HandlerTaskTimer.java:270-288 | when the callback issues no command: a delivery to one builder keeps every other builder's pending messages, with their due times and multiplicities |
| TimerSharing.SharedOther | java-app/src/main/java/com/android/developer/tools/handler/HandlerTaskTimer.java:21-29 | when the other builder's callback issues no command: a delivery to another builder leaves a counting-down builder's fields, pending message and own events as they were |
| TimerSharing.SharedTick | java-app/src/main/java/com/android/developer/tools/handler/HandlerTaskTimer.java:292-296 | when the tick consumer issues no command: with other messages pending, a countdown's own delivery shows `k - 1` at its due time and leaves exactly its next message, a period later |
| TimerSharing.SharedDone | java-app/src/main/java/com/android/developer/tools/handler/HandlerTaskTimer.java:298-300 | when the action issues no command: with other messages pending, a countdown's delivery at zero appends only its completion (if it has an action) and leaves nothing of it pending |
| TimerSharing.TracksFire | java-app/src/main/java/com/android/developer/tools/handler/HandlerTaskTimer.java:21-29 | every delivery, to any builder, whose callback issues no command keeps a countdown's own events equal to a prefix of what it shows alone, with the rest still to come |
| TimerSharing.StartCountingDown | java-app/src/main/java/com/android/developer/tools/handler/HandlerTaskTimer.java:239-259 | starting a complete countdown next to other pending messages shows its clamped count and leaves exactly one message of it, due after the initial delay |
| TimerSharing.SharedFromCounting | java-app/src/main/java/com/android/developer/tools/handler/HandlerTaskTimer.java:290-301 | from a counting-down state, after any number of deliveries among other builders, the countdown's own events are a prefix of the rest of its lone sequence, and all of it once nothing of it is pending |
| TimerSharing.CountDownSharedFromStart | java-app/src/main/java/com/android/developer/tools/handler/HandlerTaskTimer.java:232-301 | a countdown started while other builders have messages pending shows its clamped count at once; its own events are always a prefix of what it shows alone (`LoneCountDown`), and all of it once nothing of it is pending |
| TimerSharing.KCountDownSharedFromStart | kotlin-app/src/main/java/com/android/developer/tools/handler/HandlerTaskTimer.kt:198-258 | the same for the Kotlin `start` |
| KotlinTimer.KStart | kotlin-app/src/main/java/com/android/developer/tools/handler/HandlerTaskTimer.kt:198-222 | with no mode `start` returns before reading the tag and changes nothing; with a mode and an unset tag the tag read throws and nothing changes; otherwise it registers the tag, and without the required callback it posts and shows nothing |
| KotlinTimer.KStartAgrees | kotlin-app/src/main/java/com/android/developer/tools/handler/HandlerTaskTimer.kt:198-206 | on every builder the Kotlin `start` leaves the timer as the Java one does; it throws exactly where Java throws or where Java returns for a missing tag |
| KotlinTimer.KStartClamps | kotlin-app/src/main/java/com/android/developer/tools/handler/HandlerTaskTimer.kt:204-206 | the Kotlin `start` leaves initial delay and period in non-negative milliseconds and the count non-negative |
| KotlinTimer.KBuilderCancel | kotlin-app/src/main/java/com/android/developer/tools/handler/HandlerTaskTimer.kt:190-193 | with the tag set, `cancel` removes all messages and unregisters the tag; with it unset, the tag read throws and nothing changes |
| KotlinTimer.KBuilderCancelAgrees | kotlin-app/src/main/java/com/android/developer/tools/handler/HandlerTaskTimer.kt:190-193 | with the tag set, the Kotlin `cancel` is the Java one; with it unset, the Java one still drops the messages and the Kotlin one does not |
| KotlinTimer.KCancel | kotlin-app/src/main/java/com/android/developer/tools/handler/HandlerTaskTimer.kt:37-41 | the facade `cancel` returns the timer unchanged for an unregistered tag and with the builder's messages removed otherwise |
| KotlinTimer.KPause | kotlin-app/src/main/java/com/android/developer/tools/handler/HandlerTaskTimer.kt:43-47 | the facade `pause` returns the timer unchanged for an unregistered tag and with the builder's messages removed otherwise |
| KotlinTimer.KResume | kotlin-app/src/main/java/com/android/developer/tools/handler/HandlerTaskTimer.kt:49-53 | the facade `resume` returns the timer unchanged for an unregistered tag and changes no tag or builder otherwise |
| KotlinTimer.KFacadeAgrees | kotlin-app/src/main/java/com/android/developer/tools/handler/HandlerTaskTimer.kt:37-53 | when every registered builder is tagged, the Kotlin facade does what the Java facade does |
| KotlinTimer.KStartKeepsTagged | kotlin-app/src/main/java/com/android/developer/tools/handler/HandlerTaskTimer.kt:203 | `start` only registers builders whose tag is set, so every registered builder stays tagged |
| KotlinTimer.KPauseThenResume | kotlin-app/src/main/java/com/android/developer/tools/handler/HandlerTaskTimer.kt:171-185 | chained `pause` then `resume` on a registered tag leaves exactly one message pending for the builder |
| KotlinTimer.KCountDownFromStart | kotlin-app/src/main/java/com/android/developer/tools/handler/HandlerTaskTimer.kt:247-258 | started alone, the Kotlin countdown shows `N` down to `0` and completes one period after the 0, then is unregistered with nothing pending |
| TimerScenarios.CountDownAConfigured | java-app/src/main/java/com/android/developer/tools/handler/HandlerTaskTimer.java:105-110 | `tag("A").countDown().period(1, SECONDS).takeWhile(3)` with both callbacks yields a one-second delay and period in seconds, bound 3 |
| TimerScenarios.DelayTaskConfigured | java-app/src/main/java/com/android/developer/tools/activity/MainActivity.java:31-35 | the main screen's chain `tag("DelayTask").initialDelay(1, SECONDS).delayExecute().accept(action)` yields a one-second initial delay and no period |
| TimerScenarios.LoopCConfigured | java-app/src/main/java/com/android/developer/tools/handler/HandlerTaskTimer.java:105-110 | a loop with `period(1, SECONDS)` has both delay and period one second |
| TimerScenarios.CountDownThreeSeconds | java-app/src/main/java/com/android/developer/tools/handler/HandlerTaskTimer.java:290-301 | that countdown shows 3, 2, 1, 0 at 0, 1, 2 and 3 s and completes at 4 s, ending unregistered with nothing pending |
| TimerScenarios.DelayOneSecond | java-app/src/main/java/com/android/developer/tools/handler/HandlerTaskTimer.java:281-284 | that one-shot runs its action at 1 s and never again, and its tag is gone |
| TimerScenarios.LoopCancelledAtTwoAndAHalf | java-app/src/main/java/com/android/developer/tools/handler/HandlerTaskTimer.java:222-227 | that loop runs at 1 s and 2 s; a `cancel` at 2.5 s removes the message due at 3 s and nothing runs afterwards |
| TimerScenarios.RunIdle | java-app/src/main/java/com/android/developer/tools/handler/HandlerTaskTimer.java:21-29 | with nothing pending, deliveries change nothing |

## Left out

- The Android `Handler`, `Looper`, `Message` and `WeakHandler` are abstracted as the ordered queue above, with no real clock. `WeakHandler` is not part of this model.
- The message dispatch (`callback`, lines 21-29) checks that the message carries a builder. Every modelled message does, so that check always passes.
- The double-checked-locking singleton `getInstance` and the thread safety of `ConcurrentHashMap` are left out. All deliveries run on one looper thread.
- Units.ToMillis: does not model the saturation of `TimeUnit.toMillis` at the `long` range. More generally, durations, times and counts are unbounded integers, so 64-bit overflow of `now + delay` is not modelled.
- Callback bodies and `printStackTrace` are left out. A callback is an event in the trace. The model restricts a callback to at most one facade command (a `Reaction`). Callbacks that issue several commands (in Kotlin, chained on the returned timer), call setters, or start builders are left out.
- The tick shown by `start` and by `resume` carries no reaction. Callbacks there cannot issue commands in this model.
- Callbacks that issue no command are assumed by: the whole-run lemmas in `TimerRuns` and `TimerSharing`; `StaysDormant` and `DelayRunsOnce`; the single-delivery lemmas `FireCountDownTick`, `FireCountDownTickCounts`, `FireCountDownDone`, `FireLoop`, `FireLoopCounts`, `ExecuteAbout` and `FireDormant`; and `ExecuteSameExcept`, `SharedOther`, `SharedTick`, `SharedDone` and `TracksFire`. With a callback that pauses or cancels the countdown's tag, a delivery to another builder does change the countdown. `CountDownBound`, `LoopBound`, `ExecuteBound`, `ReactShrinks` and `FireNoGrowth` exclude only a `resume` command. `CountDownStep`, `CountDownLast` and `LoopStep` are stated for a builder alone in the queue.
- TimerInvariants.FireKeepsAtMostOne: is proved for every delivery except a countdown tick whose consumer resumes that same countdown. That case breaks the invariant in the code itself, as `ResumeFromTickDoubles` shows, so no stronger statement about a delivery holds.
- TimerInvariants.StartKeepsAtMostOne: holds in the model only because the tick `start` shows carries no reaction. In the Java code the tag is registered (line 239) before the consumer runs (line 248). A consumer that calls `resume` on its own tag finds nothing pending and posts (lines 210-212), and `start` then posts again (line 259), leaving two messages pending as in `ResumeFromTickDoubles`.
- TimerRuns.CountDownFromStart: the exact tick sequence and its end state are proved for a countdown started with nothing else pending. With other builders' messages pending (`MainActivity` starts two timers one after the other), `TimerSharing.CountDownSharedFromStart` proves that the countdown's own events are always a prefix of that same sequence, and all of it once nothing of the countdown is pending. It does not prove that this point is reached after a given number of deliveries.
- KotlinTimer.KCountDownFromStart: the same limit; `TimerSharing.KCountDownSharedFromStart` is its counterpart with other messages pending.
- TimerFacts.StartRegisters: the exception thrown by `start` on a missing unit, and those of the Kotlin `lateinit` reads, are represented by predicates (`StartThrows`, `KStartThrows`, `KCancelThrows`) and by the state left behind. Their propagation to the caller is not modelled.
- KotlinTimer.KStart: with a mode set, reading the unset `lateinit` tag (line 203 of the Kotlin file) throws before anything changes. The model returns the unchanged timer and marks the call with `KStartThrows`, but does not model the exception reaching the caller. The Java `start` instead returns without a tag (lines 236-238 of the Java file), leaving the same state.
- A Kotlin builder whose tag was never set can get a message only through `resume`. Its one-shot or finished-countdown delivery would then throw out of `handleMessage`. Kotlin deliveries are modelled by the Java `Fire`, which is exact for tagged builders only.
- The activities and `MyApplication` are UI glue. Only their configurations appear, in `TimerScenarios`.

=== FILE: builder.dfy ===
/** `HandlerTaskTimer.Builder`: the configuration one task accumulates through its
    fluent setters before `start`. Callbacks are modelled by their presence only
    (what a callback does is an event in the timer's trace). */
module TaskBuilder {
  import opened Optional
  import opened Units

  /** `TaskType`. */
  datatype Mode = CountDown | LoopExecute | DelayExecute

  datatype Builder = Builder(
    initialDelay: int,
    period: int,
    takeWhile: int,
    unit: Option<TimeUnit>,
    consumer: bool,      // a tick `Consumer<Long>` is set
    action: bool,        // a completion `Action` is set
    tag: Option<string>,
    mode: Option<Mode>)

  /** A builder as `newBuilder()` returns it: every field zero or null. */
  const Blank: Builder := Builder(0, 0, 0, None, false, false, None, None)

  /** One fluent setter call. A `false` callback argument is a `null` passed to `accept`. */
  datatype Setter =
    | Period(period: int, unit: TimeUnit)
    | InitialDelay(delay: int, unit: TimeUnit)
    | PeriodAndDelay(period: int, delay: int, unit: TimeUnit)
    | TakeWhile(count: int)
    | Tag(tag: Option<string>)
    | AcceptAction(action: bool)
    | AcceptConsumer(consumer: bool)
    | AcceptBoth(consumer: bool, action: bool)
    | SelectCountDown
    | SelectLoopExecute
    | SelectDelayExecute

  /** The three setters that take a duration and a unit. */
  predicate IsTiming(op: Setter)
  {
    op.Period? || op.InitialDelay? || op.PeriodAndDelay?
  }

  /** The builder after one setter call. */
  function Apply(b: Builder, op: Setter): (r: Builder)
    ensures IsTiming(op) ==> r.unit == Some(op.unit)
    ensures op.Period? ==> r.period == op.period && r.initialDelay == op.period
    ensures op.InitialDelay? ==> r.initialDelay == op.delay && r.period == b.period
    ensures op.PeriodAndDelay? ==> r.period == op.period && r.initialDelay == op.delay
    ensures !IsTiming(op) ==> r.unit == b.unit && r.period == b.period && r.initialDelay == b.initialDelay
    ensures r.takeWhile == (if op.TakeWhile? then op.count else b.takeWhile)
    ensures r.tag == (if op.Tag? then op.tag else b.tag)
    ensures r.mode == match op
                      case SelectCountDown => Some(CountDown)
                      case SelectLoopExecute => Some(LoopExecute)
                      case SelectDelayExecute => Some(DelayExecute)
                      case _ => b.mode
    ensures r.consumer == (if op.AcceptConsumer? || op.AcceptBoth? then op.consumer else b.consumer)
    ensures r.action == (if op.AcceptAction? || op.AcceptBoth? then op.action else b.action)
  {
    match op
    case Period(p, u) => b.(period := p, initialDelay := p, unit := Some(u))
    case InitialDelay(d, u) => b.(initialDelay := d, unit := Some(u))
    case PeriodAndDelay(p, d, u) => b.(period := p, initialDelay := d, unit := Some(u))
    case TakeWhile(n) => b.(takeWhile := n)
    case Tag(t) => b.(tag := t)
    case AcceptAction(a) => b.(action := a)
    case AcceptConsumer(c) => b.(consumer := c)
    case AcceptBoth(c, a) => b.(consumer := c, action := a)
    case SelectCountDown => b.(mode := Some(CountDown))
    case SelectLoopExecute => b.(mode := Some(LoopExecute))
    case SelectDelayExecute => b.(mode := Some(DelayExecute))
  }

  /** A chain of setter calls, leftmost first. */
  function ApplyAll(b: Builder, ops: seq<Setter>): Builder
    decreases |ops|
  {
    if |ops| == 0 then b else ApplyAll(Apply(b, ops[0]), ops[1..])
  }

  lemma {:induction false} ApplyAllSnoc(b: Builder, ops: seq<Setter>, op: Setter)
    ensures ApplyAll(b, ops + [op]) == Apply(ApplyAll(b, ops), op)
    decreases |ops|
  {
    if |ops| == 0 {
      assert ops + [op] == [op];
    } else {
      assert (ops + [op])[1..] == ops[1..] + [op];
      ApplyAllSnoc(Apply(b, ops[0]), ops[1..], op);
    }
  }

  /** The unit of the last timing setter in `ops`, or `u` when there is none. */
  function LastUnit(ops: seq<Setter>, u: Option<TimeUnit>): Option<TimeUnit>
  {
    if |ops| == 0 then u
    else if IsTiming(ops[|ops| - 1]) then Some(ops[|ops| - 1].unit)
    else LastUnit(ops[..|ops| - 1], u)
  }

  /** Every timing setter overwrites `unit`, so the unit given last applies to both
      the initial delay and the period, whichever setter gave them. */
  lemma {:induction false} LastUnitWins(b: Builder, ops: seq<Setter>)
    ensures ApplyAll(b, ops).unit == LastUnit(ops, b.unit)
    decreases |ops|
  {
    if |ops| > 0 {
      var init := ops[..|ops| - 1];
      assert ops == init + [ops[|ops| - 1]];
      ApplyAllSnoc(b, init, ops[|ops| - 1]);
      LastUnitWins(b, init);
    }
  }

  /** `Math.max(0L, x)`. */
  function NonNeg(x: int): nat
  {
    if x < 0 then 0 else x
  }

  /** What `start` does to the fields once mode, tag and unit are known: both
      durations converted to milliseconds and clamped, the count clamped. */
  function Clamp(b: Builder): (r: Builder)
    requires b.unit.Some?
    ensures r.initialDelay >= 0 && r.period >= 0 && r.takeWhile >= 0
    ensures r.initialDelay == NonNeg(ToMillis(b.unit.value, b.initialDelay))
    ensures r.period == NonNeg(ToMillis(b.unit.value, b.period))
    ensures b.takeWhile >= 0 ==> r.takeWhile == b.takeWhile
    ensures b.takeWhile < 0 ==> r.takeWhile == 0
    ensures r.(initialDelay := b.initialDelay, period := b.period, takeWhile := b.takeWhile) == b
  {
    b.(initialDelay := NonNeg(ToMillis(b.unit.value, b.initialDelay)),
       period := NonNeg(ToMillis(b.unit.value, b.period)),
       takeWhile := NonNeg(b.takeWhile))
  }
}

=== FILE: facts.dfy ===
/** Properties of single operations of the timer: what `start`, `pause`, `resume` and
    `cancel` do to the registry, the queue and the trace, and how each firing changes
    the queue. */
module TimerFacts {
  import opened Optional
  import opened Units
  import opened MessageQueue
  import opened TaskBuilder
  import opened TaskTimer

  // ---- setters -----------------------------------------------------------------

  /** A chain of setter calls on builder `id`, leftmost first. */
  function ConfigureAll(s: State, id: Id, ops: seq<Setter>): State
    decreases |ops|
  {
    if |ops| == 0 then s else ConfigureAll(Configure(s, id, ops[0]), id, ops[1..])
  }

  /** Setter calls on a builder inside the timer change that builder's fields exactly
      as the chain does on its own, and touch no other builder, tag, message or event. */
  lemma {:induction false} ConfigureAllApplies(s: State, id: Id, ops: seq<Setter>)
    ensures BuilderOf(ConfigureAll(s, id, ops), id) == ApplyAll(BuilderOf(s, id), ops)
    ensures forall x :: x != id ==> BuilderOf(ConfigureAll(s, id, ops), x) == BuilderOf(s, x)
    ensures ConfigureAll(s, id, ops).(builders := s.builders) == s
    decreases |ops|
  {
    if |ops| > 0 {
      ConfigureAllApplies(Configure(s, id, ops[0]), id, ops[1..]);
    }
  }

  // ---- start -------------------------------------------------------------------

  /** A null mode or a null tag: `start` returns without touching anything. */
  lemma StartWithoutModeOrTag(s: State, id: Id)
    requires BuilderOf(s, id).mode.None? || BuilderOf(s, id).tag.None?
    ensures Start(s, id) == s
  {
  }

  /** With mode and tag set, the tag maps to this builder afterwards, whatever else
      happens: a null unit (the call throws), a missing callback, or a real start. */
  lemma StartRegisters(s: State, id: Id)
    requires BuilderOf(s, id).mode.Some? && BuilderOf(s, id).tag.Some?
    ensures var r := Start(s, id);
            r.tags == s.tags[BuilderOf(s, id).tag.value := id] && r.now == s.now
    ensures StartThrows(s, id) ==> Start(s, id) == s.(tags := Start(s, id).tags)
  {
  }

  /** After `start` got past the unit, both durations are in milliseconds and, with
      the count, no longer negative; no other field changes. */
  lemma StartClamps(s: State, id: Id)
    requires var b := BuilderOf(s, id); b.mode.Some? && b.tag.Some? && b.unit.Some?
    ensures var b := BuilderOf(s, id);
            var c := BuilderOf(Start(s, id), id);
            && c.initialDelay == NonNeg(ToMillis(b.unit.value, b.initialDelay))
            && c.period == NonNeg(ToMillis(b.unit.value, b.period))
            && c.takeWhile == NonNeg(b.takeWhile)
            && c.initialDelay >= 0 && c.period >= 0 && c.takeWhile >= 0
            && c.(initialDelay := b.initialDelay, period := b.period, takeWhile := b.takeWhile) == b
    ensures forall x :: x != id ==> BuilderOf(Start(s, id), x) == BuilderOf(s, x)
  {
  }

  /** The tick consumer of a countdown, or the action otherwise, missing: the builder
      stays registered and clamped, but nothing is enqueued and nothing is shown. */
  lemma StartWithoutCallback(s: State, id: Id)
    requires var b := BuilderOf(s, id); b.mode.Some? && b.tag.Some? && b.unit.Some?
    requires !HasRequiredCallback(BuilderOf(s, id))
    ensures var r := Start(s, id);
            && r.tags == s.tags[BuilderOf(s, id).tag.value := id]
            && r.queue == s.queue && r.trace == s.trace
  {
  }

  /** A complete configuration: `start` inserts one message due the clamped initial
      delay from now and, for a countdown, shows the clamped count once. */
  lemma StartSends(s: State, id: Id)
    requires var b := BuilderOf(s, id); b.mode.Some? && b.tag.Some? && b.unit.Some?
    requires HasRequiredCallback(BuilderOf(s, id))
    ensures var b := BuilderOf(s, id);
            var c := Clamp(b);
            var r := Start(s, id);
            && r.queue == Insert(s.queue, Msg(s.now + c.initialDelay, id))
            && r.trace == s.trace + (if b.mode.value == CountDown then [Ticked(id, c.takeWhile, s.now)] else [])
  {
  }

  /** ... so the builder has exactly one more message pending, due the clamped initial
      delay from now, and no other builder's messages are touched. */
  lemma StartEnqueues(s: State, id: Id)
    requires var b := BuilderOf(s, id); b.mode.Some? && b.tag.Some? && b.unit.Some?
    requires HasRequiredCallback(BuilderOf(s, id))
    ensures var r := Start(s, id);
            && Count(r.queue, id) == Count(s.queue, id) + 1
            && Msg(s.now + Clamp(BuilderOf(s, id)).initialDelay, id) in r.queue
            && (forall x :: x != id ==> Count(r.queue, x) == Count(s.queue, x))
  {
    StartSends(s, id);
    InsertCounts(s.queue, Msg(s.now + Clamp(BuilderOf(s, id)).initialDelay, id));
  }

  /** Starting a second builder under a tag already held replaces the mapping; the
      first builder is not cancelled and keeps its pending messages. */
  lemma StartShadowsSameTag(s: State, first: Id, second: Id, tag: string)
    requires first != second && tag in s.tags && s.tags[tag] == first
    requires var b := BuilderOf(s, second); b.mode.Some? && b.tag == Some(tag)
    ensures var r := Start(s, second);
            r.tags[tag] == second && Count(r.queue, first) == Count(s.queue, first)
  {
    var b := BuilderOf(s, second);
    if b.unit.Some? && HasRequiredCallback(b) {
      StartEnqueues(s, second);
    }
  }

  // ---- pause, resume, cancel ------------------------------------------------------

  /** `pause` drops every pending message of the builder, keeps every other builder's
      messages, and changes no field, no tag and no trace. */
  lemma PauseDropsMessages(s: State, id: Id)
    ensures var r := BuilderPause(s, id);
            && !Has(r.queue, id)
            && (forall x :: x != id ==> Count(r.queue, x) == Count(s.queue, x))
            && (forall m: Msg :: m.id != id ==> multiset(r.queue)[m] == multiset(s.queue)[m])
            && r.builders == s.builders && r.tags == s.tags && r.trace == s.trace && r.now == s.now
  {
    RemoveAllCounts(s.queue, id);
    HasIffCount(RemoveAll(s.queue, id), id);
  }

  /** `resume` with a message pending does nothing. */
  lemma ResumeWhilePending(s: State, id: Id)
    requires Has(s.queue, id)
    ensures BuilderResume(s, id) == s
  {
  }

  /** `resume` with nothing pending enqueues one message a period (not the initial delay)
      from now; a countdown shows its current count again, undecremented. */
  lemma ResumeWhenIdle(s: State, id: Id)
    requires !Has(s.queue, id)
    ensures var b := BuilderOf(s, id);
            var r := BuilderResume(s, id);
            && r.queue == Insert(s.queue, Msg(s.now + NonNeg(b.period), id))
            && r.trace == s.trace + (if b.mode == Some(CountDown) && b.consumer
                                     then [Ticked(id, b.takeWhile, s.now)] else [])
            && r.builders == s.builders && r.tags == s.tags && r.now == s.now
  {
  }

  /** ... so exactly one message is pending for the builder afterwards. */
  lemma ResumeEnqueuesOne(s: State, id: Id)
    requires !Has(s.queue, id)
    ensures var r := BuilderResume(s, id);
            && Count(r.queue, id) == 1
            && Msg(s.now + NonNeg(BuilderOf(s, id).period), id) in r.queue
            && (forall x :: x != id ==> Count(r.queue, x) == Count(s.queue, x))
  {
    ResumeWhenIdle(s, id);
    HasIffCount(s.queue, id);
    InsertCounts(s.queue, Msg(s.now + NonNeg(BuilderOf(s, id).period), id));
  }

  /** Resuming a builder with nothing pending from a state with the same fields and clock. */
  lemma ResumeIdleCopy(s: State, id: Id, p: State)
    requires p.builders == s.builders && p.now == s.now && !Has(p.queue, id)
    ensures var r := BuilderResume(p, id);
            && Count(r.queue, id) == 1
            && Msg(s.now + NonNeg(BuilderOf(s, id).period), id) in r.queue
            && BuilderOf(r, id) == BuilderOf(s, id)
  {
    var m := Msg(p.now + NonNeg(BuilderOf(p, id).period), id);
    var r := BuilderResume(p, id);
    ResumeWhenIdle(p, id);
    HasIffCount(p.queue, id);
    InsertCounts(p.queue, m);
    assert r.queue == Insert(p.queue, m);
    assert m in r.queue;
  }

  /** Pausing and then resuming leaves exactly one message, due one period after the
      resume: the next firing is a full period away, not earlier. */
  lemma PauseThenResume(s: State, id: Id)
    ensures var r := BuilderResume(BuilderPause(s, id), id);
            && Count(r.queue, id) == 1
            && Msg(s.now + NonNeg(BuilderOf(s, id).period), id) in r.queue
            && BuilderOf(r, id) == BuilderOf(s, id)
  {
    PauseDropsMessages(s, id);
    ResumeIdleCopy(s, id, BuilderPause(s, id));
  }

  /** `Builder.cancel` drops the builder's messages and unregisters its tag, whichever
      builder the tag is mapped to; nothing else changes. */
  lemma CancelUnregisters(s: State, id: Id)
    ensures var b := BuilderOf(s, id);
            var r := BuilderCancel(s, id);
            && !Has(r.queue, id)
            && (forall x :: x != id ==> Count(r.queue, x) == Count(s.queue, x))
            && (forall m: Msg :: m.id != id ==> multiset(r.queue)[m] == multiset(s.queue)[m])
            && r.tags == (if b.tag.Some? then s.tags - {b.tag.value} else s.tags)
            && r.builders == s.builders && r.trace == s.trace && r.now == s.now
  {
    var s1 := if BuilderOf(s, id).tag.Some? then s.(tags := s.tags - {BuilderOf(s, id).tag.value}) else s;
    RemoveAllCounts(s1.queue, id);
    HasIffCount(RemoveAll(s1.queue, id), id);
  }

  /** A builder whose tag another builder now holds still unregisters that tag when it
      is cancelled; the holder's messages stay, so the holder is no longer reachable. */
  lemma CancelRemovesOtherHolder(s: State, id: Id, holder: Id, tag: string)
    requires BuilderOf(s, id).tag == Some(tag) && tag in s.tags && s.tags[tag] == holder && holder != id
    ensures var r := BuilderCancel(s, id);
            tag !in r.tags && Count(r.queue, holder) == Count(s.queue, holder)
  {
    CancelUnregisters(s, id);
  }

  lemma {:induction false} CancelTwiceBuilder(s: State, id: Id)
    ensures BuilderCancel(BuilderCancel(s, id), id) == BuilderCancel(s, id)
  {
    var r := BuilderCancel(s, id);
    CancelUnregisters(s, id);
    HasIffCount(r.queue, id);
    RemoveAllIdle(r.queue, id);
  }

  /** The facade calls with a null or unregistered tag change nothing. */
  lemma FacadeIgnoresUnknownTag(s: State, tag: Option<string>)
    requires tag.None? || tag.value !in s.tags
    ensures Cancel(s, tag) == s && Pause(s, tag) == s && Resume(s, tag) == s
  {
  }

  /** Cancelling a tag twice is cancelling it once. */
  lemma CancelTwice(s: State, tag: Option<string>)
    ensures Cancel(Cancel(s, tag), tag) == Cancel(s, tag)
  {
    if tag.Some? && tag.value in s.tags {
      var id := s.tags[tag.value];
      var r := BuilderCancel(s, id);
      CancelUnregisters(s, id);
      if tag.value in r.tags {
        assert r.tags[tag.value] == id;
        CancelTwiceBuilder(s, id);
      }
    }
  }

  /** The facade `pause` and `resume` act on the builder the tag maps to. */
  lemma FacadeDelegates(s: State, tag: string)
    requires tag in s.tags
    ensures Pause(s, Some(tag)) == BuilderPause(s, s.tags[tag])
    ensures Resume(s, Some(tag)) == BuilderResume(s, s.tags[tag])
    ensures Cancel(s, Some(tag)) == BuilderCancel(s, s.tags[tag])
  {
  }
}

=== FILE: firing.dfy ===
/** One delivery at a time, with other builders' messages around: what each mode does
    with the message it is handed, and why a builder with nothing pending stays silent. */
module TimerFiring {
  import opened Optional
  import opened MessageQueue
  import opened TaskBuilder
  import opened TaskTimer
  import opened TimerFacts
  import opened TimerRuns
  import opened TimerInvariants

  /** The clock once the head message is delivered. */
  function DeliveredAt(s: State): nat
    requires |s.queue| > 0
  {
    if s.now < s.queue[0].due then s.queue[0].due else s.now
  }

  /** The state a callback sees: the head message consumed, the clock at its due time. */
  function Delivered(s: State): State
    requires |s.queue| > 0
  {
    s.(queue := s.queue[1..], now := DeliveredAt(s))
  }

  lemma FireIsDelivery(s: State, re: Reaction)
    requires |s.queue| > 0
    ensures Fire(s, re) == ExecuteTask(Delivered(s), s.queue[0].id, re)
    ensures DeliveredAt(s) >= s.now && DeliveredAt(s) >= s.queue[0].due
  {
  }

  /** Events recorded after `s`'s trace all concern builder `id`. */
  ghost predicate OnlyAbout(s: State, r: State, id: Id)
  {
    && s.trace <= r.trace
    && forall i :: |s.trace| <= i < |r.trace| ==> r.trace[i].id == id
  }

  /** Events recorded after `s`'s trace never concern builder `id`. */
  ghost predicate NothingAbout(s: State, r: State, id: Id)
  {
    && s.trace <= r.trace
    && forall i :: |s.trace| <= i < |r.trace| ==> r.trace[i].id != id
  }

  /** Consuming the head message and enqueueing one for the same builder leaves every
      builder's pending count as it was. */
  lemma ReinsertCounts(q: seq<Msg>, q': seq<Msg>, due: nat)
    requires |q| > 0 && q' == Insert(q[1..], Msg(due, q[0].id))
    ensures forall x :: Count(q', x) == Count(q, x)
  {
    InsertCounts(q[1..], Msg(due, q[0].id));
    forall x
      ensures Count(q', x) == Count(q, x)
    {
      PopCount(q, x);
    }
  }

  // ---- a countdown tick ---------------------------------------------------------------

  /** A countdown with a count left: it decrements the count by exactly one, shows the
      new count, and enqueues its next message one period after delivery; nothing else
      changes and no builder's pending count moves. */
  lemma FireCountDownTick(s: State)
    requires |s.queue| > 0
    requires var b := BuilderOf(s, s.queue[0].id);
             b.mode == Some(CountDown) && b.consumer && b.takeWhile > 0
    ensures var id := s.queue[0].id;
            var b := BuilderOf(s, id);
            var t := DeliveredAt(s);
            var r := Fire(s, Nothing);
            && r.trace == s.trace + [Ticked(id, b.takeWhile - 1, t)]
            && r.builders == s.builders[id := b.(takeWhile := b.takeWhile - 1)]
            && r.queue == Insert(s.queue[1..], Msg(t + NonNeg(b.period), id))
            && r.tags == s.tags && r.now == t
  {
    FireIsDelivery(s, Nothing);
  }

  lemma FireCountDownTickCounts(s: State)
    requires |s.queue| > 0
    requires var b := BuilderOf(s, s.queue[0].id);
             b.mode == Some(CountDown) && b.consumer && b.takeWhile > 0
    ensures forall x :: Count(Fire(s, Nothing).queue, x) == Count(s.queue, x)
  {
    var id := s.queue[0].id;
    FireCountDownTick(s);
    ReinsertCounts(s.queue, Fire(s, Nothing).queue, DeliveredAt(s) + NonNeg(BuilderOf(s, id).period));
  }

  /** A countdown at zero runs its action (if any) and cancels itself: no message of
      its stays pending and its tag is unregistered. */
  lemma FireCountDownDone(s: State)
    requires |s.queue| > 0
    requires var b := BuilderOf(s, s.queue[0].id);
             b.mode == Some(CountDown) && b.consumer && b.takeWhile <= 0
    ensures var id := s.queue[0].id;
            var b := BuilderOf(s, id);
            var r := Fire(s, Nothing);
            && r.trace == s.trace + (if b.action then [Acted(id, DeliveredAt(s))] else [])
            && !Has(r.queue, id)
            && r.tags == (if b.tag.Some? then s.tags - {b.tag.value} else s.tags)
            && r.builders == s.builders
  {
    var id := s.queue[0].id;
    FireIsDelivery(s, Nothing);
    CancelUnregisters(PerformActionExecute(Delivered(s), id, Nothing), id);
  }

  // ---- a loop ---------------------------------------------------------------------------

  /** A loop enqueues its next message one period after delivery before it runs the
      action; its tag stays registered and no builder's pending count moves. */
  lemma FireLoop(s: State)
    requires |s.queue| > 0
    requires var b := BuilderOf(s, s.queue[0].id);
             b.mode == Some(LoopExecute) && b.action
    ensures var id := s.queue[0].id;
            var t := DeliveredAt(s);
            var r := Fire(s, Nothing);
            && r.trace == s.trace + [Acted(id, t)]
            && r.queue == Insert(s.queue[1..], Msg(t + NonNeg(BuilderOf(s, id).period), id))
            && r.builders == s.builders && r.tags == s.tags && r.now == t
  {
    FireIsDelivery(s, Nothing);
  }

  lemma FireLoopCounts(s: State)
    requires |s.queue| > 0
    requires var b := BuilderOf(s, s.queue[0].id);
             b.mode == Some(LoopExecute) && b.action
    ensures forall x :: Count(Fire(s, Nothing).queue, x) == Count(s.queue, x)
  {
    var id := s.queue[0].id;
    FireLoop(s);
    ReinsertCounts(s.queue, Fire(s, Nothing).queue, DeliveredAt(s) + NonNeg(BuilderOf(s, id).period));
  }

  // ---- a one-shot -------------------------------------------------------------------------

  lemma ReactKeepsBuilders(s: State, re: Reaction)
    ensures React(s, re).builders == s.builders
    ensures s.trace <= React(s, re).trace
  {
  }

  /** A one-shot runs its action once and then cancels itself, whatever the action does
      to the timer: afterwards nothing of it is pending and its tag is unregistered. */
  lemma FireDelay(s: State, re: Reaction)
    requires |s.queue| > 0
    requires BuilderOf(s, s.queue[0].id).mode == Some(DelayExecute)
    ensures var id := s.queue[0].id;
            var b := BuilderOf(s, id);
            var r := Fire(s, re);
            && (b.action ==> s.trace + [Acted(id, DeliveredAt(s))] <= r.trace)
            && !Has(r.queue, id)
            && (b.tag.Some? ==> b.tag.value !in r.tags)
            && r.builders == s.builders
  {
    var id := s.queue[0].id;
    var d := Delivered(s);
    var p := PerformActionExecute(d, id, re);
    FireIsDelivery(s, re);
    if BuilderOf(d, id).action {
      ReactKeepsBuilders(Emit(d, Acted(id, d.now)), re);
    }
    CancelUnregisters(p, id);
  }

  // ---- a builder with nothing pending --------------------------------------------------

  lemma ActionAbout(s: State, id: Id)
    ensures OnlyAbout(s, PerformActionExecute(s, id, Nothing), id)
    ensures PerformActionExecute(s, id, Nothing).tags == s.tags
  {
  }

  lemma CancelAbout(s: State, id: Id)
    ensures BuilderCancel(s, id).trace == s.trace
    ensures BuilderCancel(s, id).tags.Keys <= s.tags.Keys
  {
  }

  lemma ExecuteAbout(s: State, id: Id)
    ensures OnlyAbout(s, ExecuteTask(s, id, Nothing), id)
    ensures ExecuteTask(s, id, Nothing).tags.Keys <= s.tags.Keys
  {
    var b := BuilderOf(s, id);
    match b.mode
    case None =>
    case Some(CountDown) =>
      if b.consumer && b.takeWhile <= 0 {
        ActionAbout(s, id);
        CancelAbout(PerformActionExecute(s, id, Nothing), id);
      }
    case Some(LoopExecute) =>
      if b.action {
        ActionAbout(SendDelayed(s, id, b.period), id);
      }
    case Some(DelayExecute) =>
      ActionAbout(s, id);
      CancelAbout(PerformActionExecute(s, id, Nothing), id);
  }

  /** A delivery to another builder records nothing about `id`, enqueues nothing for it,
      and registers no tag. */
  lemma FireDormant(s: State, id: Id)
    requires Count(s.queue, id) == 0
    ensures var r := Fire(s, Nothing);
            && Count(r.queue, id) == 0
            && NothingAbout(s, r, id)
            && r.tags.Keys <= s.tags.Keys
  {
    FireNoGrowth(s, Nothing);
    if |s.queue| > 0 {
      FireIsDelivery(s, Nothing);
      ExecuteAbout(Delivered(s), s.queue[0].id);
    }
  }

  lemma NothingAboutTrans(s: State, m: State, r: State, id: Id)
    requires NothingAbout(s, m, id) && NothingAbout(m, r, id)
    ensures NothingAbout(s, r, id)
  {
    forall i | |s.trace| <= i < |r.trace|
      ensures r.trace[i].id != id
    {
      if i < |m.trace| {
        assert r.trace[i] == m.trace[i];
      }
    }
  }

  /** Once a builder has nothing pending, later deliveries never mention it, never
      enqueue for it, and never register a tag again. */
  lemma {:induction false} StaysDormant(s: State, id: Id, n: nat)
    requires Count(s.queue, id) == 0
    ensures var r := Run(s, n);
            && Count(r.queue, id) == 0
            && NothingAbout(s, r, id)
            && r.tags.Keys <= s.tags.Keys
    decreases n
  {
    if n > 0 {
      var f := Fire(s, Nothing);
      FireDormant(s, id);
      StaysDormant(f, id, n - 1);
      NothingAboutTrans(s, f, Run(f, n - 1), id);
    }
  }

  /** A one-shot whose message is next runs its action exactly once: at delivery, and
      never again in any number of later deliveries; its tag stays unregistered. */
  lemma DelayRunsOnce(s: State, n: nat)
    requires |s.queue| > 0
    requires var b := BuilderOf(s, s.queue[0].id);
             b.mode == Some(DelayExecute) && b.action
    ensures var id := s.queue[0].id;
            var b := BuilderOf(s, id);
            var r := Run(s, n + 1);
            && |r.trace| > |s.trace|
            && r.trace[..|s.trace| + 1] == s.trace + [Acted(id, DeliveredAt(s))]
            && (forall i :: |s.trace| < i < |r.trace| ==> r.trace[i].id != id)
            && Count(r.queue, id) == 0
            && (b.tag.Some? ==> b.tag.value !in r.tags)
  {
    var id := s.queue[0].id;
    var f := Fire(s, Nothing);
    FireDelay(s, Nothing);
    HasIffCount(f.queue, id);
    StaysDormant(f, id, n);
    assert Run(s, n + 1) == Run(f, n);
    FireIsDelivery(s, Nothing);
    ActionAbout(Delivered(s), id);
    assert f.trace == s.trace + [Acted(id, DeliveredAt(s))];
  }
}

=== FILE: invariants.dfy ===
/** Invariants of the timer across firings: the queue stays ordered by due time, no
    firing adds a message beyond the one it consumed (so a builder started once never
    has two pending), counts never go negative, and a finished one-shot stays silent. */
module TimerInvariants {
  import opened Optional
  import opened MessageQueue
  import opened TaskBuilder
  import opened TaskTimer
  import opened TimerFacts
  import opened TimerRuns

  /** No builder has more messages pending in `q'` than in `q`. */
  ghost predicate NoGrowth(q: seq<Msg>, q': seq<Msg>)
  {
    forall x :: Count(q', x) <= Count(q, x)
  }

  /** At most one pending message per builder. */
  ghost predicate AtMostOnePending(s: State)
  {
    forall x :: Count(s.queue, x) <= 1
  }

  // ---- counting messages through one firing ----------------------------------------

  lemma SendDelayedCounts(s: State, id: Id, delay: int)
    ensures var r := SendDelayed(s, id, delay);
            && Count(r.queue, id) == Count(s.queue, id) + 1
            && (forall x :: x != id ==> Count(r.queue, x) == Count(s.queue, x))
  {
    var m := Msg(s.now + NonNeg(delay), id);
    assert SendDelayed(s, id, delay).queue == Insert(s.queue, m);
    InsertCounts(s.queue, m);
  }

  lemma CancelShrinks(s: State, id: Id)
    ensures NoGrowth(s.queue, BuilderCancel(s, id).queue)
    ensures BuilderCancel(s, id).builders == s.builders
  {
    CancelUnregisters(s, id);
    HasIffCount(BuilderCancel(s, id).queue, id);
  }

  lemma PauseShrinks(s: State, id: Id)
    ensures NoGrowth(s.queue, BuilderPause(s, id).queue)
    ensures BuilderPause(s, id).builders == s.builders
  {
    PauseDropsMessages(s, id);
    HasIffCount(BuilderPause(s, id).queue, id);
  }

  /** A callback that cancels or pauses (or does nothing) only removes messages. */
  lemma ReactShrinks(s: State, re: Reaction)
    requires !re.ResumeTag?
    ensures NoGrowth(s.queue, React(s, re).queue)
    ensures React(s, re).builders == s.builders
  {
    match re
    case Nothing =>
    case CancelTag(t) =>
      if t.Some? && t.value in s.tags {
        CancelShrinks(s, s.tags[t.value]);
      }
    case PauseTag(t) =>
      if t.Some? && t.value in s.tags {
        PauseShrinks(s, s.tags[t.value]);
      }
  }

  lemma ActionShrinks(s: State, id: Id, re: Reaction)
    requires !re.ResumeTag?
    ensures NoGrowth(s.queue, PerformActionExecute(s, id, re).queue)
    ensures PerformActionExecute(s, id, re).builders == s.builders
  {
    if BuilderOf(s, id).action {
      ReactShrinks(Emit(s, Acted(id, s.now)), re);
    }
  }

  lemma ActionThenCancelShrinks(s: State, id: Id, re: Reaction)
    requires !re.ResumeTag?
    ensures NoGrowth(s.queue, BuilderCancel(PerformActionExecute(s, id, re), id).queue)
  {
    ActionShrinks(s, id, re);
    CancelShrinks(PerformActionExecute(s, id, re), id);
  }

  lemma CountDownBound(s: State, id: Id, re: Reaction)
    requires !re.ResumeTag?
    ensures forall x :: Count(PerformCountDown(s, id, re).queue, x) <= Count(s.queue, x) + (if x == id then 1 else 0)
  {
    var b := BuilderOf(s, id);
    if b.consumer && b.takeWhile > 0 {
      var s1 := s.(builders := s.builders[id := b.(takeWhile := b.takeWhile - 1)]);
      var s2 := Invoke(s1, Ticked(id, b.takeWhile - 1, s.now), re);
      ReactShrinks(Emit(s1, Ticked(id, b.takeWhile - 1, s.now)), re);
      SendDelayedCounts(s2, id, BuilderOf(s2, id).period);
    } else if b.consumer {
      ActionThenCancelShrinks(s, id, re);
    }
  }

  lemma LoopBound(s: State, id: Id, re: Reaction)
    requires !re.ResumeTag?
    ensures forall x :: Count(PerformLoopExecute(s, id, re).queue, x) <= Count(s.queue, x) + (if x == id then 1 else 0)
  {
    if BuilderOf(s, id).action {
      var s1 := SendDelayed(s, id, BuilderOf(s, id).period);
      SendDelayedCounts(s, id, BuilderOf(s, id).period);
      ActionShrinks(s1, id, re);
    }
  }

  /** A firing of builder `id` enqueues at most one message, for `id` itself. */
  lemma ExecuteBound(s: State, id: Id, re: Reaction)
    requires !re.ResumeTag?
    ensures forall x :: Count(ExecuteTask(s, id, re).queue, x) <= Count(s.queue, x) + (if x == id then 1 else 0)
  {
    match BuilderOf(s, id).mode
    case None =>
    case Some(CountDown) => CountDownBound(s, id, re);
    case Some(LoopExecute) => LoopBound(s, id, re);
    case Some(DelayExecute) => ActionThenCancelShrinks(s, id, re);
  }

  /** The delivered message is consumed: the rest of the queue counts one less for it. */
  lemma PopCount(q: seq<Msg>, x: Id)
    requires |q| > 0
    ensures Count(q[1..], x) == Count(q, x) - (if q[0].id == x then 1 else 0)
  {
  }

  /** Unless a callback resumes, a firing never leaves any builder with more messages
      pending than before: it consumes one and enqueues at most one. */
  lemma FireNoGrowth(s: State, re: Reaction)
    requires !re.ResumeTag?
    ensures NoGrowth(s.queue, Fire(s, re).queue)
  {
    if |s.queue| > 0 {
      var m := s.queue[0];
      var s1 := s.(queue := s.queue[1..], now := if s.now < m.due then m.due else s.now);
      ExecuteBound(s1, m.id, re);
      forall x
        ensures Count(Fire(s, re).queue, x) <= Count(s.queue, x)
      {
        PopCount(s.queue, x);
      }
    }
  }

  // ---- at most one pending message ------------------------------------------------


  /** Starting a builder that has nothing pending keeps the invariant. */
  lemma StartKeepsAtMostOne(s: State, id: Id)
    requires AtMostOnePending(s) && Count(s.queue, id) == 0
    ensures AtMostOnePending(Start(s, id))
  {
    var b := BuilderOf(s, id);
    if b.mode.Some? && b.tag.Some? && b.unit.Some? && HasRequiredCallback(b) {
      StartEnqueues(s, id);
    } else if b.mode.Some? && b.tag.Some? && b.unit.Some? {
      StartWithoutCallback(s, id);
    }
  }

  lemma PauseKeepsAtMostOne(s: State, id: Id)
    requires AtMostOnePending(s)
    ensures AtMostOnePending(BuilderPause(s, id))
  {
    PauseDropsMessages(s, id);
    HasIffCount(BuilderPause(s, id).queue, id);
  }

  lemma CancelKeepsAtMostOne(s: State, id: Id)
    requires AtMostOnePending(s)
    ensures AtMostOnePending(BuilderCancel(s, id))
  {
    CancelUnregisters(s, id);
    HasIffCount(BuilderCancel(s, id).queue, id);
  }

  /** `resume` enqueues only when nothing is pending, so it keeps the invariant. */
  lemma ResumeKeepsAtMostOne(s: State, id: Id)
    requires AtMostOnePending(s)
    ensures AtMostOnePending(BuilderResume(s, id))
  {
    if !Has(s.queue, id) {
      ResumeEnqueuesOne(s, id);
    }
  }

  lemma FacadeKeepsAtMostOne(s: State, tag: Option<string>)
    requires AtMostOnePending(s)
    ensures AtMostOnePending(Cancel(s, tag))
    ensures AtMostOnePending(Pause(s, tag))
    ensures AtMostOnePending(Resume(s, tag))
  {
    if tag.Some? && tag.value in s.tags {
      CancelKeepsAtMostOne(s, s.tags[tag.value]);
      PauseKeepsAtMostOne(s, s.tags[tag.value]);
      ResumeKeepsAtMostOne(s, s.tags[tag.value]);
    }
  }

  /** A callback that issues a command keeps the invariant, whatever the command. */
  lemma ReactKeepsAtMostOne(s: State, re: Reaction)
    requires AtMostOnePending(s)
    ensures AtMostOnePending(React(s, re))
  {
    match re
    case Nothing =>
    case CancelTag(t) => FacadeKeepsAtMostOne(s, t);
    case PauseTag(t) => FacadeKeepsAtMostOne(s, t);
    case ResumeTag(t) => FacadeKeepsAtMostOne(s, t);
  }

  /** The callback's command resumes builder `id` through a registered tag. */
  predicate ResumesBuilder(s: State, re: Reaction, id: Id)
  {
    re.ResumeTag? && re.tag.Some? && re.tag.value in s.tags && s.tags[re.tag.value] == id
  }

  /** A command that does not resume `id` leaves `id` with nothing pending if it had
      nothing pending before. */
  lemma ReactKeepsIdle(s: State, re: Reaction, id: Id)
    requires Count(s.queue, id) == 0 && !ResumesBuilder(s, re, id)
    ensures Count(React(s, re).queue, id) == 0
  {
    match re
    case Nothing =>
    case CancelTag(t) =>
      if t.Some? && t.value in s.tags {
        CancelShrinks(s, s.tags[t.value]);
      }
    case PauseTag(t) =>
      if t.Some? && t.value in s.tags {
        PauseShrinks(s, s.tags[t.value]);
      }
    case ResumeTag(t) =>
      if t.Some? && t.value in s.tags {
        var x := s.tags[t.value];
        if !Has(s.queue, x) {
          ResumeEnqueuesOne(s, x);
        }
      }
  }

  /** Posting for a builder with nothing pending keeps the invariant. */
  lemma SendDelayedKeepsAtMostOne(s: State, id: Id, delay: int)
    requires AtMostOnePending(s) && Count(s.queue, id) == 0
    ensures AtMostOnePending(SendDelayed(s, id, delay))
  {
    SendDelayedCounts(s, id, delay);
  }

  lemma ActionKeepsAtMostOne(s: State, id: Id, re: Reaction)
    requires AtMostOnePending(s)
    ensures AtMostOnePending(PerformActionExecute(s, id, re))
  {
    if BuilderOf(s, id).action {
      ReactKeepsAtMostOne(Emit(s, Acted(id, s.now)), re);
    }
  }

  /** The one firing whose callback can break the invariant: a countdown with a tick
      consumer and a count left, whose consumer resumes that same countdown. */
  ghost predicate ResumesOwnTick(s: State, re: Reaction)
  {
    && |s.queue| > 0
    && ResumesBuilder(s, re, s.queue[0].id)
    && var b := BuilderOf(s, s.queue[0].id);
       b.mode == Some(CountDown) && b.consumer && b.takeWhile > 0
  }

  /** Executing the builder whose message was just consumed keeps the invariant,
      except when its tick consumer resumes it. */
  lemma ExecuteKeepsAtMostOne(s: State, id: Id, re: Reaction)
    requires AtMostOnePending(s) && Count(s.queue, id) == 0
    requires var b := BuilderOf(s, id);
             !(ResumesBuilder(s, re, id) && b.mode == Some(CountDown) && b.consumer && b.takeWhile > 0)
    ensures AtMostOnePending(ExecuteTask(s, id, re))
  {
    var b := BuilderOf(s, id);
    match b.mode
    case None =>
    case Some(CountDown) =>
      if b.consumer && b.takeWhile > 0 {
        TickKeepsAtMostOne(s, id, re);
      } else if b.consumer {
        ActionKeepsAtMostOne(s, id, re);
        CancelKeepsAtMostOne(PerformActionExecute(s, id, re), id);
      }
    case Some(LoopExecute) =>
      if b.action {
        SendDelayedKeepsAtMostOne(s, id, b.period);
        ActionKeepsAtMostOne(SendDelayed(s, id, b.period), id, re);
      }
    case Some(DelayExecute) =>
      ActionKeepsAtMostOne(s, id, re);
      CancelKeepsAtMostOne(PerformActionExecute(s, id, re), id);
  }

  /** A countdown tick keeps the invariant unless its consumer resumes the countdown. */
  lemma TickKeepsAtMostOne(s: State, id: Id, re: Reaction)
    requires AtMostOnePending(s) && Count(s.queue, id) == 0 && !ResumesBuilder(s, re, id)
    requires var b := BuilderOf(s, id); b.consumer && b.takeWhile > 0
    ensures AtMostOnePending(PerformCountDown(s, id, re))
  {
    var b := BuilderOf(s, id);
    var s1 := s.(builders := s.builders[id := b.(takeWhile := b.takeWhile - 1)]);
    var e := Emit(s1, Ticked(id, b.takeWhile - 1, s.now));
    assert e.queue == s.queue && e.tags == s.tags;
    assert AtMostOnePending(e);
    ReactKeepsAtMostOne(e, re);
    ReactKeepsIdle(e, re, id);
    var r := React(e, re);
    assert PerformCountDown(s, id, re) == SendDelayed(r, id, BuilderOf(r, id).period);
    SendDelayedKeepsAtMostOne(r, id, BuilderOf(r, id).period);
  }

  /** If every builder has at most one message pending, it still does after a
      delivery, whatever its callbacks command, unless the delivery is a countdown
      tick whose consumer resumes that same countdown. */
  lemma FireKeepsAtMostOne(s: State, re: Reaction)
    requires AtMostOnePending(s) && !ResumesOwnTick(s, re)
    ensures AtMostOnePending(Fire(s, re))
  {
    if |s.queue| > 0 {
      var m := s.queue[0];
      var d := s.(queue := s.queue[1..], now := if s.now < m.due then m.due else s.now);
      assert AtMostOnePending(d) && Count(d.queue, m.id) == 0 by {
        forall x
          ensures Count(d.queue, x) <= Count(s.queue, x) - (if x == m.id then 1 else 0)
        {
          PopCount(s.queue, x);
        }
      }
      ExecuteKeepsAtMostOne(d, m.id, re);
    }
  }

  /** The one way a firing breaks the invariant: a tick consumer that resumes its own
      countdown finds nothing pending (the message was just consumed), so `resume`
      enqueues one, and the countdown then enqueues its own next message as well. */
  lemma ResumeFromTickDoubles()
    ensures var b := Builder(0, 1000, 2, Some(Units.Milliseconds), true, false, Some("A"), Some(CountDown));
            var s := State(map["A" := 0], map[0 := b], [Msg(0, 0)], 0, [], 1);
            AtMostOnePending(s) && Count(Fire(s, ResumeTag(Some("A"))).queue, 0) == 2
  {
    var b := Builder(0, 1000, 2, Some(Units.Milliseconds), true, false, Some("A"), Some(CountDown));
    var s := State(map["A" := 0], map[0 := b], [Msg(0, 0)], 0, [], 1);
    forall x
      ensures Count(s.queue, x) <= 1
    {
      assert s.queue[1..] == [];
    }
    var s1 := s.(queue := [], builders := map[0 := b.(takeWhile := 1)]);
    var s2 := Emit(s1, Ticked(0, 1, 0));
    var s3 := BuilderResume(s2, 0);
    assert s3.queue == [Msg(1000, 0)];
    assert Fire(s, ResumeTag(Some("A"))) == SendDelayed(s3, 0, 1000);
    InsertCounts(s3.queue, Msg(1000, 0));
  }

  // ---- ordering -----------------------------------------------------------------------

  lemma ReactKeepsOrder(s: State, re: Reaction)
    requires Sorted(s.queue)
    ensures Sorted(React(s, re).queue)
  {
  }

  lemma ExecuteKeepsOrder(s: State, id: Id, re: Reaction)
    requires Sorted(s.queue)
    ensures Sorted(ExecuteTask(s, id, re).queue)
  {
    match BuilderOf(s, id).mode
    case None =>
    case Some(CountDown) => CountDownKeepsOrder(s, id, re);
    case Some(LoopExecute) => LoopKeepsOrder(s, id, re);
    case Some(DelayExecute) =>
      if BuilderOf(s, id).action {
        ReactKeepsOrder(Emit(s, Acted(id, s.now)), re);
      }
  }

  lemma CountDownKeepsOrder(s: State, id: Id, re: Reaction)
    requires Sorted(s.queue)
    ensures Sorted(PerformCountDown(s, id, re).queue)
  {
    var b := BuilderOf(s, id);
    if b.consumer && b.takeWhile > 0 {
      var s1 := s.(builders := s.builders[id := b.(takeWhile := b.takeWhile - 1)]);
      ReactKeepsOrder(Emit(s1, Ticked(id, b.takeWhile - 1, s.now)), re);
    } else if b.consumer && b.action {
      ReactKeepsOrder(Emit(s, Acted(id, s.now)), re);
    }
  }

  lemma LoopKeepsOrder(s: State, id: Id, re: Reaction)
    requires Sorted(s.queue)
    ensures Sorted(PerformLoopExecute(s, id, re).queue)
  {
    var b := BuilderOf(s, id);
    if b.action {
      var s1 := SendDelayed(s, id, b.period);
      ReactKeepsOrder(Emit(s1, Acted(id, s1.now)), re);
    }
  }

  lemma SuffixSorted(q: seq<Msg>)
    requires Sorted(q) && |q| > 0
    ensures Sorted(q[1..])
  {
  }

  /** Whatever a callback does, the queue stays ordered by due time, so the looper
      always delivers the earliest message next. */
  lemma FireKeepsOrder(s: State, re: Reaction)
    requires Sorted(s.queue)
    ensures Sorted(Fire(s, re).queue)
  {
    if |s.queue| > 0 {
      var m := s.queue[0];
      var s1 := s.(queue := s.queue[1..], now := if s.now < m.due then m.due else s.now);
      SuffixSorted(s.queue);
      ExecuteKeepsOrder(s1, m.id, re);
      assert Fire(s, re) == ExecuteTask(s1, m.id, re);
    }
  }

  lemma StartKeepsOrder(s: State, id: Id)
    requires Sorted(s.queue)
    ensures Sorted(Start(s, id).queue)
  {
  }
}

=== FILE: kotlin.dfy ===
/** The Kotlin port of the timer. Its builder's `tag` (like its `unit`) is `lateinit`, so
    reading it before it is set throws; its facade takes a non-null tag and returns the
    timer so that calls chain. Deliveries are shared with the Java model. */
module KotlinTimer {
  import opened Optional
  import opened MessageQueue
  import opened TaskBuilder
  import opened TaskTimer
  import opened TimerFacts
  import opened TimerRuns

  /** `start()`: with no mode it returns before reading anything. With a mode, reading
      an unset `lateinit` tag throws before anything changes; otherwise the tag is
      registered before the callbacks are checked, and an unset `unit` throws right
      after registering. */
  function KStart(s: State, id: Id): (r: State)
    ensures BuilderOf(s, id).mode.None? || BuilderOf(s, id).tag.None? ==> r == s
    ensures var b := BuilderOf(s, id);
            b.mode.Some? && b.tag.Some? ==> r.tags == s.tags[b.tag.value := id]
    ensures !HasRequiredCallback(BuilderOf(s, id)) ==> r.queue == s.queue && r.trace == s.trace
  {
    var b := BuilderOf(s, id);
    if b.mode.None? then s
    else if b.tag.None? then s
    else
      var s1 := s.(tags := s.tags[b.tag.value := id]);
      if b.unit.None? then s1 else Launch(s1, id)
  }

  /** The calls of the Kotlin `start` that throw: an unset tag or unit read after the
      mode check. */
  predicate KStartThrows(s: State, id: Id)
  {
    var b := BuilderOf(s, id);
    b.mode.Some? && (b.tag.None? || b.unit.None?)
  }

  /** The Kotlin `start` leaves the timer as the Java `start` does: without a tag the
      Java one returns where the Kotlin one throws, and neither has changed anything. */
  lemma KStartAgrees(s: State, id: Id)
    ensures KStart(s, id) == Start(s, id)
    ensures KStartThrows(s, id) <==> StartThrows(s, id) || (BuilderOf(s, id).mode.Some? && BuilderOf(s, id).tag.None?)
  {
  }

  /** `start()` leaves the clamped values in milliseconds and non-negative. */
  lemma KStartClamps(s: State, id: Id)
    requires BuilderOf(s, id).tag.Some? && BuilderOf(s, id).mode.Some? && BuilderOf(s, id).unit.Some?
    ensures var b := BuilderOf(s, id);
            var c := BuilderOf(KStart(s, id), id);
            && c.initialDelay == NonNeg(Units.ToMillis(b.unit.value, b.initialDelay))
            && c.period == NonNeg(Units.ToMillis(b.unit.value, b.period))
            && c.takeWhile == NonNeg(b.takeWhile)
            && c.initialDelay >= 0 && c.period >= 0 && c.takeWhile >= 0
  {
    KStartAgrees(s, id);
    StartClamps(s, id);
  }

  /** `Builder.cancel()`: reading an unset tag throws before any message is removed. */
  function KBuilderCancel(s: State, id: Id): (r: State)
    ensures BuilderOf(s, id).tag.None? ==> r == s
    ensures BuilderOf(s, id).tag.Some? ==> !Has(r.queue, id) && BuilderOf(s, id).tag.value !in r.tags
  {
    if BuilderOf(s, id).tag.None? then s else BuilderCancel(s, id)
  }

  /** Whether `Builder.cancel()` throws. */
  predicate KCancelThrows(s: State, id: Id)
  {
    BuilderOf(s, id).tag.None?
  }

  /** With the tag set, the Kotlin `cancel()` is the Java one; without it the Java one
      still drops the messages while the Kotlin one drops nothing. */
  lemma KBuilderCancelAgrees(s: State, id: Id)
    ensures !KCancelThrows(s, id) ==> KBuilderCancel(s, id) == BuilderCancel(s, id)
    ensures KCancelThrows(s, id) ==> KBuilderCancel(s, id).queue == s.queue
                                     && !Has(BuilderCancel(s, id).queue, id)
  {
    CancelUnregisters(s, id);
  }

  /** Facade `cancel(tag)`: returns the timer, changed only if the tag is registered. */
  function KCancel(s: State, tag: string): (r: State)
    ensures tag !in s.tags ==> r == s
    ensures tag in s.tags && BuilderOf(s, s.tags[tag]).tag.Some? ==> !Has(r.queue, s.tags[tag])
  {
    if tag in s.tags then KBuilderCancel(s, s.tags[tag]) else s
  }

  /** Facade `pause(tag)`. */
  function KPause(s: State, tag: string): (r: State)
    ensures tag !in s.tags ==> r == s
    ensures tag in s.tags ==> !Has(r.queue, s.tags[tag]) && r.tags == s.tags && r.builders == s.builders
  {
    if tag in s.tags then
      PauseDropsMessages(s, s.tags[tag]);
      BuilderPause(s, s.tags[tag])
    else s
  }

  /** Facade `resume(tag)`. */
  function KResume(s: State, tag: string): (r: State)
    ensures tag !in s.tags ==> r == s
    ensures tag in s.tags ==> r.tags == s.tags && r.builders == s.builders
  {
    if tag in s.tags then BuilderResume(s, s.tags[tag]) else s
  }

  /** Every registered builder has its tag set: the Kotlin `start` reads the tag before
      it registers, so nothing else can be in the map. */
  ghost predicate TaggedRegistry(s: State)
  {
    forall t :: t in s.tags ==> BuilderOf(s, s.tags[t]).tag.Some?
  }

  /** The facade of the Kotlin port does what the Java facade does with a non-null tag. */
  lemma KFacadeAgrees(s: State, tag: string)
    requires TaggedRegistry(s)
    ensures KCancel(s, tag) == Cancel(s, Some(tag))
    ensures KPause(s, tag) == Pause(s, Some(tag))
    ensures KResume(s, tag) == Resume(s, Some(tag))
  {
  }

  /** The Kotlin `start` keeps every registered builder tagged. */
  lemma KStartKeepsTagged(s: State, id: Id)
    requires TaggedRegistry(s)
    ensures TaggedRegistry(KStart(s, id))
  {
    var r := KStart(s, id);
    forall t | t in r.tags
      ensures BuilderOf(r, r.tags[t]).tag.Some?
    {
      if BuilderOf(s, id).mode.Some? && BuilderOf(s, id).tag.Some? && BuilderOf(s, id).unit.Some? {
        StartClamps(s, id);
        StartRegisters(s, id);
      }
    }
  }

  /** Calls on the returned timer chain: pausing and then resuming an idle registered
      builder leaves exactly one message pending for it. */
  lemma KPauseThenResume(s: State, tag: string)
    requires tag in s.tags
    ensures Count(KResume(KPause(s, tag), tag).queue, s.tags[tag]) == 1
  {
    var id := s.tags[tag];
    PauseThenResume(s, id);
  }

  /** The Kotlin countdown shows `N`, `N - 1`, ..., `0` and completes one period after
      showing `0`, exactly as the Java one does. */
  lemma KCountDownFromStart(s: State, id: Id)
    requires id in s.builders && s.queue == []
    requires var b := s.builders[id];
             b.mode == Some(CountDown) && b.tag.Some? && b.unit.Some? && b.consumer
    ensures var b := s.builders[id];
            var c := Clamp(b);
            var n: nat := c.takeWhile;
            var t := s.now + c.initialDelay;
            var r := Run(KStart(s, id), n + 1);
            && r.trace == s.trace + [Ticked(id, n, s.now)] + CountDownTicks(id, n, t, c.period)
                          + (if b.action then [Acted(id, After(t, n, c.period))] else [])
            && b.tag.value !in r.tags
            && r.queue == []
  {
    KStartAgrees(s, id);
    CountDownFromStart(s, id);
  }
}

=== FILE: option.dfy ===
/** The nullable references of the timer (a builder's tag, unit and mode, a facade
    argument) are modelled as an `Option`. */
module Optional {

  datatype Option<+T> = None | Some(value: T)
}

=== FILE: queue.dfy ===
/** The Android `Handler`/`MessageQueue` pair the timer sits on, reduced to what the
    timer uses: every message has `what == RUNNING_WHAT` and a builder as `obj`, so a
    message is a due time and a builder identity. The queue is kept ordered by due
    time; a message is inserted after every message due no later than it, so two
    messages due at the same instant are delivered in the order they were sent. */
module MessageQueue {

  /** Identity of a `Builder` object. */
  type Id = nat

  datatype Msg = Msg(due: nat, id: Id)

  predicate Sorted(q: seq<Msg>)
  {
    forall i, j :: 0 <= i < j < |q| ==> q[i].due <= q[j].due
  }

  /** Number of pending messages whose `obj` is builder `id`. */
  function Count(q: seq<Msg>, id: Id): nat
  {
    if |q| == 0 then 0 else (if q[0].id == id then 1 else 0) + Count(q[1..], id)
  }

  /** `hasMessages(RUNNING_WHAT, obj)`. */
  predicate Has(q: seq<Msg>, id: Id)
  {
    exists i :: 0 <= i < |q| && q[i].id == id
  }

  lemma {:induction false} HasIffCount(q: seq<Msg>, id: Id)
    ensures Has(q, id) <==> Count(q, id) > 0
  {
    if |q| > 0 {
      HasIffCount(q[1..], id);
      if Has(q, id) && q[0].id != id {
        var i :| 0 <= i < |q| && q[i].id == id;
        assert q[1..][i - 1].id == id;
      }
      if Has(q[1..], id) {
        var i :| 0 <= i < |q[1..]| && q[1..][i].id == id;
        assert q[i + 1].id == id;
      }
    }
  }

  /** Number of leading messages due no later than `m`: where `m` is enqueued. */
  function InsertPos(q: seq<Msg>, m: Msg): (k: nat)
    ensures k <= |q|
    ensures forall i :: 0 <= i < k ==> q[i].due <= m.due
    ensures k < |q| ==> m.due < q[k].due
  {
    if |q| == 0 || m.due < q[0].due then 0 else 1 + InsertPos(q[1..], m)
  }

  /** `sendMessageAtTime`: walk past every message due no later than `m`, insert there. */
  function Insert(q: seq<Msg>, m: Msg): (r: seq<Msg>)
    ensures |r| == |q| + 1
    ensures m in r
    ensures |q| > 0 ==> r[0] == m || r[0] == q[0]
    ensures Sorted(q) ==> Sorted(r)
  {
    if |q| == 0 || m.due < q[0].due then [m] + q else [q[0]] + Insert(q[1..], m)
  }

  lemma SliceCons(q: seq<Msg>, k: nat)
    requires k < |q|
    ensures q[..k + 1] == [q[0]] + q[1..][..k]
    ensures q[k + 1..] == q[1..][k..]
  {
  }

  lemma ConsSplit(x: Msg, a: seq<Msg>, m: Msg, b: seq<Msg>)
    ensures [x] + (a + [m] + b) == ([x] + a) + [m] + b
  {
  }

  /** The insertion point splits the queue: every message due no later than `m` stays
      in front of it (first in, first out on equal due times), every later one behind. */
  lemma {:induction false} InsertSplits(q: seq<Msg>, m: Msg)
    ensures Insert(q, m) == q[..InsertPos(q, m)] + [m] + q[InsertPos(q, m)..]
  {
    if |q| == 0 || m.due < q[0].due {
      assert q[..0] == [];
    } else {
      InsertSplits(q[1..], m);
      var k := InsertPos(q[1..], m);
      SliceCons(q, k);
      ConsSplit(q[0], q[1..][..k], m, q[1..][k..]);
    }
  }

  lemma InsertFifo(q: seq<Msg>, m: Msg)
    requires Sorted(q)
    ensures forall i :: 0 <= i < |q| && q[i].due <= m.due ==> Insert(q, m)[i] == q[i]
    ensures forall i :: 0 <= i < |q| && m.due < q[i].due ==> Insert(q, m)[i + 1] == q[i]
    ensures Insert(q, m)[InsertPos(q, m)] == m
  {
    InsertSplits(q, m);
    var k := InsertPos(q, m);
    forall i | 0 <= i < |q| && q[i].due <= m.due
      ensures i < k
    {
    }
  }

  lemma {:induction false} InsertCount(q: seq<Msg>, m: Msg, x: Id)
    ensures Count(Insert(q, m), x) == Count(q, x) + (if m.id == x then 1 else 0)
  {
    if |q| == 0 || m.due < q[0].due {
      assert ([m] + q)[1..] == q;
    } else {
      InsertCount(q[1..], m, x);
      assert ([q[0]] + Insert(q[1..], m))[1..] == Insert(q[1..], m);
    }
  }

  lemma InsertCounts(q: seq<Msg>, m: Msg)
    ensures Count(Insert(q, m), m.id) == Count(q, m.id) + 1
    ensures forall x :: x != m.id ==> Count(Insert(q, m), x) == Count(q, x)
  {
    forall x
      ensures Count(Insert(q, m), x) == Count(q, x) + (if m.id == x then 1 else 0)
    {
      InsertCount(q, m, x);
    }
  }

  /** Inserting loses and duplicates nothing: the queue gains exactly `m`. */
  lemma {:induction false} InsertMultiset(q: seq<Msg>, m: Msg)
    ensures multiset(Insert(q, m)) == multiset(q) + multiset{m}
  {
    if |q| > 0 && q[0].due <= m.due {
      InsertMultiset(q[1..], m);
      assert q == [q[0]] + q[1..];
    }
  }

  /** A builder with no message counted has no message in the queue at all. */
  lemma NoneCounted(q: seq<Msg>, id: Id)
    requires Count(q, id) == 0
    ensures forall m: Msg :: m.id == id ==> multiset(q)[m] == 0
  {
    HasIffCount(q, id);
  }

  /** `removeCallbacksAndMessages(obj)`: drop every message of builder `id`. */
  function RemoveAll(q: seq<Msg>, id: Id): (r: seq<Msg>)
    ensures |r| <= |q|
    ensures forall j :: 0 <= j < |r| ==> r[j].id != id
    ensures Sorted(q) && |r| > 0 ==> q[0].due <= r[0].due
    ensures Sorted(q) ==> Sorted(r)
    ensures forall m: Msg :: m.id != id ==> multiset(r)[m] == multiset(q)[m]
  {
    if |q| == 0 then []
    else
      var rest := RemoveAll(q[1..], id);
      assert q == [q[0]] + q[1..];
      assert multiset(q) == multiset{q[0]} + multiset(q[1..]);
      SortedTail(q);
      if q[0].id == id then rest
      else
        assert multiset([q[0]] + rest) == multiset{q[0]} + multiset(rest);
        SortedCons(q[0], rest);
        [q[0]] + rest
  }

  lemma SortedTail(q: seq<Msg>)
    requires |q| > 0
    ensures Sorted(q) ==> Sorted(q[1..]) && (|q| > 1 ==> q[0].due <= q[1].due)
  {
  }

  /** An ordered queue stays ordered under a message due no later than its head. */
  lemma SortedCons(m: Msg, q: seq<Msg>)
    ensures Sorted(q) && (|q| > 0 ==> m.due <= q[0].due) ==> Sorted([m] + q)
  {
    if Sorted(q) && (|q| > 0 ==> m.due <= q[0].due) {
      forall i, j | 0 <= i < j < |[m] + q|
        ensures ([m] + q)[i].due <= ([m] + q)[j].due
      {
        if i > 0 {
          assert ([m] + q)[i] == q[i - 1];
        }
      }
    }
  }

  lemma {:induction false} RemoveAllCount(q: seq<Msg>, id: Id, x: Id)
    ensures Count(RemoveAll(q, id), x) == if x == id then 0 else Count(q, x)
  {
    if |q| > 0 {
      RemoveAllCount(q[1..], id, x);
      if q[0].id != id {
        assert ([q[0]] + RemoveAll(q[1..], id))[1..] == RemoveAll(q[1..], id);
      }
    }
  }

  lemma RemoveAllCounts(q: seq<Msg>, id: Id)
    ensures Count(RemoveAll(q, id), id) == 0
    ensures forall x :: x != id ==> Count(RemoveAll(q, id), x) == Count(q, x)
    ensures forall m: Msg :: m.id != id ==> multiset(RemoveAll(q, id))[m] == multiset(q)[m]
  {
    forall x
      ensures Count(RemoveAll(q, id), x) == if x == id then 0 else Count(q, x)
    {
      RemoveAllCount(q, id, x);
    }
  }

  /** Removing the messages of a builder that has none changes nothing. */
  lemma {:induction false} RemoveAllIdle(q: seq<Msg>, id: Id)
    requires Count(q, id) == 0
    ensures RemoveAll(q, id) == q
  {
    if |q| > 0 {
      RemoveAllIdle(q[1..], id);
    }
  }
}

=== FILE: runs.dfy ===
/** What each mode does over a run of deliveries: the countdown's tick sequence, the
    loop's endless re-enqueueing, the one-shot delay, and where a cancel issued from
    inside a callback takes effect. */
module TimerRuns {
  import opened Optional
  import opened MessageQueue
  import opened TaskBuilder
  import opened TaskTimer

  /** `n` deliveries in a row, no callback calling back into the timer. */
  function Run(s: State, n: nat): State
    decreases n
  {
    if n == 0 then s else Run(Fire(s, Nothing), n - 1)
  }

  /** `t` plus `k` periods of `p`, counted one period at a time. */
  function After(t: nat, k: nat, p: nat): nat
    decreases k
  {
    if k == 0 then t else After(t + p, k - 1, p)
  }

  lemma {:induction false} AfterIsProduct(t: nat, k: nat, p: nat)
    ensures After(t, k, p) == t + k * p
    decreases k
  {
    if k > 0 {
      AfterIsProduct(t + p, k - 1, p);
      assert t + p + (k - 1) * p == t + k * p;
    }
  }

  lemma Regroup(a: seq<Event>, e: Event, b: seq<Event>, c: seq<Event>)
    ensures a + [e] + b + c == a + ([e] + b) + c
  {
  }

  /** The ticks a countdown shows from its first delivery on, when `k` is left:
      `k - 1`, ..., `0`, one period apart, starting at `t`. */
  function CountDownTicks(id: Id, k: nat, t: nat, p: nat): seq<Event>
    decreases k
  {
    if k == 0 then [] else [Ticked(id, k - 1, t)] + CountDownTicks(id, k - 1, t + p, p)
  }

  lemma {:induction false} CountDownTicksShape(id: Id, k: nat, t: nat, p: nat)
    ensures |CountDownTicks(id, k, t, p)| == k
    ensures forall i :: 0 <= i < k ==> CountDownTicks(id, k, t, p)[i] == Ticked(id, k - 1 - i, t + i * p)
    decreases k
  {
    if k > 0 {
      CountDownTicksShape(id, k - 1, t + p, p);
      forall i | 1 <= i < k
        ensures CountDownTicks(id, k, t, p)[i] == Ticked(id, k - 1 - i, t + i * p)
      {
        assert t + p + (i - 1) * p == t + i * p;
      }
    }
  }

  /** One delivery of a countdown with `k > 0` left: decrement, show `k - 1`, enqueue the
      next message a period later. */
  lemma CountDownStep(s: State, id: Id, k: nat, t: nat, p: nat)
    requires id in s.builders
    requires s.builders[id].mode == Some(CountDown) && s.builders[id].consumer
    requires s.builders[id].takeWhile == k && k > 0 && s.builders[id].period == p
    requires s.queue == [Msg(t, id)] && s.now <= t
    ensures var r := Fire(s, Nothing);
            && r.trace == s.trace + [Ticked(id, k - 1, t)]
            && r.queue == [Msg(t + p, id)]
            && r.builders == s.builders[id := s.builders[id].(takeWhile := k - 1)]
            && r.tags == s.tags && r.now == t
  {
  }

  /** The delivery at zero: run the action if any, then cancel. */
  lemma CountDownLast(s: State, id: Id, t: nat)
    requires id in s.builders
    requires s.builders[id].mode == Some(CountDown) && s.builders[id].consumer
    requires s.builders[id].takeWhile == 0
    requires s.queue == [Msg(t, id)] && s.now <= t
    ensures var r := Fire(s, Nothing);
            var b := s.builders[id];
            && r.trace == s.trace + (if b.action then [Acted(id, t)] else [])
            && r.queue == []
            && r.builders == s.builders
            && r.tags == (if b.tag.Some? then s.tags - {b.tag.value} else s.tags)
            && r.now == t
  {
  }

  /** The last delivery of a countdown, as a one-delivery run. */
  lemma CountDownLastRun(s: State, id: Id, t: nat, p: nat)
    requires id in s.builders
    requires s.builders[id].mode == Some(CountDown) && s.builders[id].consumer
    requires s.builders[id].takeWhile == 0 && s.builders[id].period == p
    requires s.queue == [Msg(t, id)] && s.now <= t
    ensures Run(s, 1).trace == s.trace + CountDownTicks(id, 0, t, p)
                               + (if s.builders[id].action then [Acted(id, After(t, 0, p))] else [])
  {
    CountDownLast(s, id, t);
  }

  /** A run of `k + 1` deliveries is the step at `k` followed by the run of `k` from
      the next message. */
  lemma CountDownRunStep(s: State, id: Id, k: nat, t: nat, p: nat)
    requires id in s.builders
    requires s.builders[id].mode == Some(CountDown) && s.builders[id].consumer
    requires s.builders[id].takeWhile == k && k > 0 && s.builders[id].period == p
    requires s.queue == [Msg(t, id)] && s.now <= t
    requires Run(Fire(s, Nothing), k).trace
             == Fire(s, Nothing).trace + CountDownTicks(id, k - 1, t + p, p)
                + (if s.builders[id].action then [Acted(id, After(t + p, k - 1, p))] else [])
    ensures Run(s, k + 1).trace == s.trace + CountDownTicks(id, k, t, p)
                                   + (if s.builders[id].action then [Acted(id, After(t, k, p))] else [])
  {
    CountDownStep(s, id, k, t, p);
    assert Run(s, k + 1) == Run(Fire(s, Nothing), k);
    var done := if s.builders[id].action then [Acted(id, After(t, k, p))] else [];
    Regroup(s.trace, Ticked(id, k - 1, t), CountDownTicks(id, k - 1, t + p, p), done);
  }

  /** From its pending message at `t` with `k` left, a lone countdown shows `k - 1`
      down to `0` one period apart and completes one period after showing `0`. */
  lemma {:induction false} CountDownFromMessage(s: State, id: Id, k: nat, t: nat, p: nat)
    requires id in s.builders
    requires s.builders[id].mode == Some(CountDown) && s.builders[id].consumer
    requires s.builders[id].takeWhile == k && s.builders[id].period == p
    requires s.queue == [Msg(t, id)] && s.now <= t
    ensures Run(s, k + 1).trace == s.trace + CountDownTicks(id, k, t, p)
                                   + (if s.builders[id].action then [Acted(id, After(t, k, p))] else [])
    decreases k
  {
    if k == 0 {
      CountDownLastRun(s, id, t, p);
    } else {
      CountDownStep(s, id, k, t, p);
      CountDownFromMessage(Fire(s, Nothing), id, k - 1, t + p, p);
      CountDownRunStep(s, id, k, t, p);
    }
  }

  /** The end state of a countdown run: nothing pending, count zero, tag unregistered. */
  predicate CountDownEnded(s: State, r: State, id: Id, t: nat)
    requires id in s.builders
  {
    var b := s.builders[id];
    && r.queue == []
    && r.builders == s.builders[id := b.(takeWhile := 0)]
    && r.tags == (if b.tag.Some? then s.tags - {b.tag.value} else s.tags)
    && r.now == t
  }

  lemma CountDownEndsStep(s: State, id: Id, k: nat, t: nat, p: nat)
    requires id in s.builders
    requires s.builders[id].mode == Some(CountDown) && s.builders[id].consumer
    requires s.builders[id].takeWhile == k && k > 0 && s.builders[id].period == p
    requires s.queue == [Msg(t, id)] && s.now <= t
    requires id in Fire(s, Nothing).builders
    requires CountDownEnded(Fire(s, Nothing), Run(Fire(s, Nothing), k), id, After(t + p, k - 1, p))
    ensures CountDownEnded(s, Run(s, k + 1), id, After(t, k, p))
  {
    CountDownStep(s, id, k, t, p);
    assert Run(s, k + 1) == Run(Fire(s, Nothing), k);
    assert Fire(s, Nothing).builders[id].(takeWhile := 0) == s.builders[id].(takeWhile := 0);
  }

  /** ... and ends unregistered, with nothing pending and a count of zero. */
  lemma {:induction false} CountDownEnds(s: State, id: Id, k: nat, t: nat, p: nat)
    requires id in s.builders
    requires s.builders[id].mode == Some(CountDown) && s.builders[id].consumer
    requires s.builders[id].takeWhile == k && s.builders[id].period == p
    requires s.queue == [Msg(t, id)] && s.now <= t
    ensures CountDownEnded(s, Run(s, k + 1), id, After(t, k, p))
    decreases k
  {
    if k == 0 {
      CountDownLast(s, id, t);
      assert s.builders[id].(takeWhile := 0) == s.builders[id];
    } else {
      CountDownStep(s, id, k, t, p);
      CountDownEnds(Fire(s, Nothing), id, k - 1, t + p, p);
      CountDownEndsStep(s, id, k, t, p);
    }
  }

  /** `start` of a countdown with nothing pending: the tag is registered, the fields
      clamped, the clamped count shown, and exactly one message enqueued. */
  lemma StartCountDownAlone(s: State, id: Id)
    requires id in s.builders && s.queue == []
    requires var b := s.builders[id];
             b.mode == Some(CountDown) && b.tag.Some? && b.unit.Some? && b.consumer
    ensures var b := s.builders[id];
            var c := Clamp(b);
            Start(s, id) == s.(tags := s.tags[b.tag.value := id],
                               builders := s.builders[id := c],
                               queue := [Msg(s.now + c.initialDelay, id)],
                               trace := s.trace + [Ticked(id, c.takeWhile, s.now)])
  {
  }

  /** A countdown started with nothing else pending shows its clamped bound `N` at once,
      then `N - 1`, ..., `0` one period apart after the initial delay, then completes one
      period after showing `0` and is unregistered: `N + 1` ticks, at most one completion. */
  lemma CountDownFromStart(s: State, id: Id)
    requires id in s.builders && s.queue == []
    requires var b := s.builders[id];
             b.mode == Some(CountDown) && b.tag.Some? && b.unit.Some? && b.consumer
    ensures var b := s.builders[id];
            var c := Clamp(b);
            var n: nat := c.takeWhile;
            var t := s.now + c.initialDelay;
            var r := Run(Start(s, id), n + 1);
            && r.trace == s.trace + [Ticked(id, n, s.now)] + CountDownTicks(id, n, t, c.period)
                          + (if b.action then [Acted(id, After(t, n, c.period))] else [])
            && b.tag.value !in r.tags
            && r.queue == []
            && id in r.builders && r.builders[id].takeWhile == 0
  {
    var b := s.builders[id];
    var c := Clamp(b);
    StartCountDownAlone(s, id);
    var s1 := Start(s, id);
    CountDownFromMessage(s1, id, c.takeWhile, s.now + c.initialDelay, c.period);
    CountDownEnds(s1, id, c.takeWhile, s.now + c.initialDelay, c.period);
  }

  /** The completions a loop runs from its first delivery on: `n` of them, a period apart. */
  function LoopActs(id: Id, n: nat, t: nat, p: nat): seq<Event>
    decreases n
  {
    if n == 0 then [] else [Acted(id, t)] + LoopActs(id, n - 1, t + p, p)
  }

  /** One loop delivery: enqueue the next message a period later, then run the action. */
  lemma LoopStep(s: State, id: Id, t: nat, p: nat)
    requires id in s.builders
    requires s.builders[id].mode == Some(LoopExecute) && s.builders[id].action
    requires s.builders[id].period == p
    requires s.queue == [Msg(t, id)] && s.now <= t
    ensures var r := Fire(s, Nothing);
            && r.trace == s.trace + [Acted(id, t)]
            && r.queue == [Msg(t + p, id)]
            && r.builders == s.builders && r.tags == s.tags && r.now == t
  {
  }

  /** A lone loop runs its action on each of `n` deliveries, a period apart, never
      unregisters itself, and always has exactly its next message pending. */
  lemma {:induction false} LoopFromMessage(s: State, id: Id, n: nat, t: nat, p: nat)
    requires id in s.builders
    requires s.builders[id].mode == Some(LoopExecute) && s.builders[id].action
    requires s.builders[id].period == p
    requires s.queue == [Msg(t, id)] && s.now <= t
    ensures var r := Run(s, n);
            && r.trace == s.trace + LoopActs(id, n, t, p)
            && r.queue == [Msg(After(t, n, p), id)]
            && r.builders == s.builders && r.tags == s.tags
    decreases n
  {
    if n > 0 {
      LoopStep(s, id, t, p);
      var s' := Fire(s, Nothing);
      LoopFromMessage(s', id, n - 1, t + p, p);
      assert Run(s, n) == Run(s', n - 1);
      assert s'.trace + LoopActs(id, n - 1, t + p, p) == s.trace + LoopActs(id, n, t, p);
    }
  }

  /** A loop enqueues its next message before running its action, so a `cancel` of its
      tag issued from inside the action removes that message: nothing stays pending. */
  lemma LoopCancelledInAction(s: State, id: Id, tag: string)
    requires id in s.builders
    requires s.builders[id].mode == Some(LoopExecute) && s.builders[id].action
    requires s.builders[id].tag == Some(tag) && tag in s.tags && s.tags[tag] == id
    requires |s.queue| > 0 && s.queue[0].id == id
    ensures var r := Fire(s, CancelTag(Some(tag)));
            && !Has(r.queue, id)
            && tag !in r.tags
            && r.trace == s.trace + [Acted(id, r.now)]
  {
    var m := s.queue[0];
    var s1 := s.(queue := s.queue[1..], now := if s.now < m.due then m.due else s.now);
    var s2 := SendDelayed(s1, id, s.builders[id].period);
    assert Fire(s, CancelTag(Some(tag))) == Invoke(s2, Acted(id, s1.now), CancelTag(Some(tag)));
  }

  /** A `cancel` of a builder's own tag from a callback leaves nothing of that builder
      pending and the tag unregistered. */
  lemma CancelOwnTag(s: State, id: Id, tag: string, e: Event)
    requires id in s.builders && s.builders[id].tag == Some(tag)
    requires tag in s.tags && s.tags[tag] == id
    ensures var c := Invoke(s, e, CancelTag(Some(tag)));
            && Count(c.queue, id) == 0
            && tag !in c.tags
  {
    var s0 := Emit(s, e);
    assert Invoke(s, e, CancelTag(Some(tag))) == BuilderCancel(s0, id);
    RemoveAllCount(s0.queue, id, id);
  }

  /** A `cancel` of a builder's own tag from a callback, followed by a post for that
      builder, leaves exactly that post pending and the tag unregistered. */
  lemma CancelThenPost(s: State, id: Id, tag: string, e: Event, delay: int)
    requires id in s.builders && s.builders[id].tag == Some(tag)
    requires tag in s.tags && s.tags[tag] == id
    ensures var r := SendDelayed(Invoke(s, e, CancelTag(Some(tag))), id, delay);
            && Count(r.queue, id) == 1
            && tag !in r.tags
  {
    CancelOwnTag(s, id, tag, e);
    PostWhenIdle(Invoke(s, e, CancelTag(Some(tag))), id, delay);
  }

  /** A post for a builder with nothing pending leaves exactly one message of it. */
  lemma PostWhenIdle(s: State, id: Id, delay: int)
    requires Count(s.queue, id) == 0
    ensures Count(SendDelayed(s, id, delay).queue, id) == 1
    ensures SendDelayed(s, id, delay).tags == s.tags
  {
    InsertCount(s.queue, Msg(s.now + NonNeg(delay), id), id);
  }

  /** A countdown enqueues its next message after showing the count, so a `cancel` of its
      tag issued from inside the tick consumer unregisters the tag but leaves the message
      just enqueued: the builder keeps firing without being reachable by its tag. */
  lemma CountDownCancelledInTick(s: State, id: Id, tag: string)
    requires id in s.builders
    requires s.builders[id].mode == Some(CountDown) && s.builders[id].consumer
    requires s.builders[id].takeWhile > 0
    requires s.builders[id].tag == Some(tag) && tag in s.tags && s.tags[tag] == id
    requires |s.queue| > 0 && s.queue[0].id == id
    ensures var r := Fire(s, CancelTag(Some(tag)));
            && Count(r.queue, id) == 1
            && tag !in r.tags
  {
    var m := s.queue[0];
    var s1 := s.(queue := s.queue[1..], now := if s.now < m.due then m.due else s.now);
    var re := CancelTag(Some(tag));
    assert Fire(s, re) == ExecuteTask(s1, id, re);
    assert ExecuteTask(s1, id, re) == PerformCountDown(s1, id, re);
    TickCancelled(s1, id, tag);
  }

  /** The tick half of `CountDownCancelledInTick`, for whatever else is pending. */
  lemma TickCancelled(s: State, id: Id, tag: string)
    requires id in s.builders
    requires s.builders[id].consumer && s.builders[id].takeWhile > 0
    requires s.builders[id].tag == Some(tag) && tag in s.tags && s.tags[tag] == id
    ensures var r := PerformCountDown(s, id, CancelTag(Some(tag)));
            && Count(r.queue, id) == 1
            && tag !in r.tags
  {
    var b := s.builders[id];
    var s1 := s.(builders := s.builders[id := b.(takeWhile := b.takeWhile - 1)]);
    var e := Ticked(id, b.takeWhile - 1, s.now);
    var s2 := Invoke(s1, e, CancelTag(Some(tag)));
    assert PerformCountDown(s, id, CancelTag(Some(tag))) == SendDelayed(s2, id, BuilderOf(s2, id).period);
    CancelThenPost(s1, id, tag, e, BuilderOf(s2, id).period);
  }
}

=== FILE: scenarios.dfy ===
/** Concrete configurations of the kind the demo screens use, worked through the general
    lemmas: a three-second countdown, a one-second one-shot, and a loop cancelled midway. */
module TimerScenarios {
  import opened Optional
  import opened Units
  import opened MessageQueue
  import opened TaskBuilder
  import opened TaskTimer
  import opened TimerFacts
  import opened TimerRuns
  import opened TimerFiring

  /** Nothing pending: further deliveries change nothing. */
  lemma {:induction false} RunIdle(s: State, n: nat)
    requires s.queue == []
    ensures Run(s, n) == s
    decreases n
  {
    if n > 0 {
      RunIdle(Fire(s, Nothing), n - 1);
    }
  }

  /** `tag("A").countDown().period(1, SECONDS).takeWhile(3).accept(consumer, action)`. */
  const CountDownA: Builder := Builder(1, 1, 3, Some(Seconds), true, true, Some("A"), Some(CountDown))

  /** `tag("DelayTask").initialDelay(1, SECONDS).delayExecute().accept(action)`, as the main screen builds it. */
  const DelayTaskBuilder: Builder := Builder(1, 0, 0, Some(Seconds), false, true, Some("DelayTask"), Some(DelayExecute))

  /** `tag("C").loopExecute().period(1, SECONDS).accept(action)`. */
  const LoopC: Builder := Builder(1, 1, 0, Some(Seconds), false, true, Some("C"), Some(LoopExecute))

  /** The setter chains produce these builders. */
  lemma CountDownAConfigured()
    ensures ApplyAll(Blank, [Tag(Some("A")), SelectCountDown, Period(1, Seconds), TakeWhile(3), AcceptBoth(true, true)]) == CountDownA
  {
  }

  lemma DelayTaskConfigured()
    ensures ApplyAll(Blank, [Tag(Some("DelayTask")), InitialDelay(1, Seconds), SelectDelayExecute, AcceptAction(true)]) == DelayTaskBuilder
  {
  }

  lemma LoopCConfigured()
    ensures ApplyAll(Blank, [Tag(Some("C")), SelectLoopExecute, Period(1, Seconds), AcceptAction(true)]) == LoopC
  {
  }

  /** A timer whose only builder, identity 0, is `b`. */
  function Alone(b: Builder): State
  {
    Initial.(builders := map[0 := b], nextId := 1)
  }

  /** `period(1, SECONDS)`, `takeWhile(3)`: the counts 3, 2, 1, 0 are shown at 0, 1, 2
      and 3 seconds, and the completion runs at 4 seconds, one period after the 0. */
  lemma CountDownThreeSeconds()
    ensures var r := Run(Start(Alone(CountDownA), 0), 4);
            && r.trace == [Ticked(0, 3, 0), Ticked(0, 2, 1000), Ticked(0, 1, 2000), Ticked(0, 0, 3000), Acted(0, 4000)]
            && "A" !in r.tags && r.queue == []
  {
    var s := Alone(CountDownA);
    ThreeTicks();
    CountDownFromStart(s, 0);
  }

  lemma ThreeTicks()
    ensures Clamp(CountDownA) == CountDownA.(initialDelay := 1000, period := 1000)
    ensures CountDownTicks(0, 3, 1000, 1000) == [Ticked(0, 2, 1000), Ticked(0, 1, 2000), Ticked(0, 0, 3000)]
    ensures After(1000, 3, 1000) == 4000
  {
  }

  /** `initialDelay(1, SECONDS)` in one-shot mode: the action runs once, at 1 second, and
      however many deliveries follow, it never runs again and the tag stays gone. */
  lemma DelayOneSecond(n: nat)
    ensures var r := Run(Start(Alone(DelayTaskBuilder), 0), n + 1);
            && |r.trace| >= 1 && r.trace[0] == Acted(0, 1000)
            && (forall i :: 1 <= i < |r.trace| ==> r.trace[i].id != 0)
            && "DelayTask" !in r.tags
  {
    var s1 := Start(Alone(DelayTaskBuilder), 0);
    assert Clamp(DelayTaskBuilder) == DelayTaskBuilder.(initialDelay := 1000);
    assert s1.queue == [Msg(1000, 0)] && s1.trace == [];
    DelayRunsOnce(s1, n);
  }

  /** `period(1, SECONDS)` in loop mode: the action runs at 1 and 2 seconds; a `cancel`
      at 2.5 seconds removes the message due at 3, and nothing runs afterwards. */
  lemma LoopCancelledAtTwoAndAHalf(n: nat)
    ensures var two := Run(Start(Alone(LoopC), 0), 2);
            && two.trace == [Acted(0, 1000), Acted(0, 2000)]
            && two.queue == [Msg(3000, 0)]
            && var r := Run(Cancel(Elapse(two, 2500), Some("C")), n);
               r.trace == two.trace && r.queue == [] && "C" !in r.tags
  {
    var s1 := Start(Alone(LoopC), 0);
    assert Clamp(LoopC) == LoopC.(initialDelay := 1000, period := 1000);
    assert s1.queue == [Msg(1000, 0)] && s1.trace == [] && s1.tags == map["C" := 0];
    LoopFromMessage(s1, 0, 2, 1000, 1000);
    assert LoopActs(0, 2, 1000, 1000) == [Acted(0, 1000), Acted(0, 2000)];
    assert After(1000, 2, 1000) == 3000;
    var two := Run(s1, 2);
    assert two.tags == map["C" := 0] && two.builders == map[0 := LoopC.(initialDelay := 1000, period := 1000)];
    var c := Cancel(Elapse(two, 2500), Some("C"));
    assert c.queue == [];
    RunIdle(c, n);
  }
}

=== FILE: sharing.dfy ===
/** A countdown sharing the looper with other builders. Deliveries to the others
    never touch the countdown's fields, messages or events, so its own events are
    those of a countdown running alone, interleaved with theirs. */
module TimerSharing {
  import opened Optional
  import opened MessageQueue
  import opened TaskBuilder
  import opened TaskTimer
  import opened TimerFacts
  import opened TimerRuns
  import opened TimerInvariants
  import opened TimerFiring
  import opened KotlinTimer

  /** The events of `tr` about builder `id`, in order. */
  function Own(tr: seq<Event>, id: Id): seq<Event>
    decreases |tr|
  {
    if |tr| == 0 then []
    else Own(tr[..|tr| - 1], id) + (if tr[|tr| - 1].id == id then [tr[|tr| - 1]] else [])
  }

  lemma {:induction false} OwnAppend(a: seq<Event>, b: seq<Event>, id: Id)
    ensures Own(a + b, id) == Own(a, id) + Own(b, id)
    decreases |b|
  {
    if |b| == 0 {
      assert a + b == a;
    } else {
      var c := b[..|b| - 1];
      assert (a + b)[..|a + b| - 1] == a + c;
      OwnAppend(a, c, id);
    }
  }

  lemma {:induction false} OwnNone(tr: seq<Event>, id: Id)
    requires forall i :: 0 <= i < |tr| ==> tr[i].id != id
    ensures Own(tr, id) == []
    decreases |tr|
  {
    if |tr| > 0 {
      OwnNone(tr[..|tr| - 1], id);
    }
  }

  /** Events recorded about other builders leave `id`'s own events as they were. */
  lemma OwnUnchanged(s: State, r: State, id: Id)
    requires NothingAbout(s, r, id)
    ensures Own(r.trace, id) == Own(s.trace, id)
  {
    var tail := r.trace[|s.trace|..];
    assert r.trace == s.trace + tail;
    OwnNone(tail, id);
    OwnAppend(s.trace, tail, id);
  }

  /** The one message pending for `id` is due at `t`. */
  ghost predicate Pending(q: seq<Msg>, id: Id, t: nat)
  {
    forall m: Msg :: m.id == id ==> multiset(q)[m] == (if m.due == t then 1 else 0)
  }

  /** A countdown with `k` left, period `p`, and its next message due at `t`, not yet
      overdue, in an ordered queue. */
  ghost predicate CountingDown(s: State, id: Id, k: nat, t: nat, p: nat)
  {
    && CountDownWith(BuilderOf(s, id), k, p)
    && Sorted(s.queue) && s.now <= t && Pending(s.queue, id, t)
  }

  predicate CountDownWith(b: Builder, k: nat, p: nat)
  {
    b.mode == Some(CountDown) && b.consumer && b.takeWhile == k && b.period == p
  }

  /** What a countdown with `k` left and its next message at `t` still has to show. */
  function Remaining(id: Id, k: nat, t: nat, p: nat, action: bool): seq<Event>
  {
    CountDownTicks(id, k, t, p) + (if action then [Acted(id, After(t, k, p))] else [])
  }

  lemma PendingHead(s: State, id: Id, t: nat)
    requires Sorted(s.queue) && Pending(s.queue, id, t)
    ensures |s.queue| > 0 && s.queue[0].due <= t && Count(s.queue, id) > 0
    ensures s.queue[0].id == id ==> s.queue[0] == Msg(t, id)
  {
    var m := Msg(t, id);
    assert multiset(s.queue)[m] == 1;
    var j :| 0 <= j < |s.queue| && s.queue[j] == m;
    HasIffCount(s.queue, id);
    if s.queue[0].id == id {
      assert multiset(s.queue)[s.queue[0]] > 0;
    }
  }

  /** `q'` holds exactly the messages of `q` that are not builder `x`'s. */
  ghost predicate SameExcept(q: seq<Msg>, q': seq<Msg>, x: Id)
  {
    forall m: Msg :: m.id != x ==> multiset(q')[m] == multiset(q)[m]
  }

  lemma InsertSameExcept(q: seq<Msg>, m: Msg)
    ensures SameExcept(q, Insert(q, m), m.id)
  {
    InsertMultiset(q, m);
  }

  lemma RemoveAllSameExcept(q: seq<Msg>, x: Id)
    ensures SameExcept(q, RemoveAll(q, x), x)
  {
    RemoveAllCounts(q, x);
  }

  /** A delivery to builder `x` keeps every other builder's messages. */
  lemma ExecuteSameExcept(d: State, x: Id)
    ensures SameExcept(d.queue, ExecuteTask(d, x, Nothing).queue, x)
  {
    match BuilderOf(d, x).mode
    case None =>
    case Some(CountDown) => CountDownSameExcept(d, x);
    case Some(LoopExecute) => LoopSameExcept(d, x);
    case Some(DelayExecute) =>
      assert ExecuteTask(d, x, Nothing).queue == RemoveAll(d.queue, x);
      RemoveAllSameExcept(d.queue, x);
  }

  lemma CountDownSameExcept(d: State, x: Id)
    requires BuilderOf(d, x).mode == Some(CountDown)
    ensures SameExcept(d.queue, PerformCountDown(d, x, Nothing).queue, x)
  {
    var b := BuilderOf(d, x);
    var r := PerformCountDown(d, x, Nothing);
    if b.consumer && b.takeWhile > 0 {
      var s1 := d.(builders := d.builders[x := b.(takeWhile := b.takeWhile - 1)]);
      var e := Emit(s1, Ticked(x, b.takeWhile - 1, d.now));
      assert r == SendDelayed(e, x, b.period);
      var m := Msg(d.now + NonNeg(b.period), x);
      assert r.queue == Insert(d.queue, m);
      InsertSameExcept(d.queue, m);
    } else if b.consumer {
      assert r.queue == RemoveAll(d.queue, x);
      RemoveAllSameExcept(d.queue, x);
    }
  }

  lemma LoopSameExcept(d: State, x: Id)
    requires BuilderOf(d, x).mode == Some(LoopExecute)
    ensures SameExcept(d.queue, PerformLoopExecute(d, x, Nothing).queue, x)
  {
    var b := BuilderOf(d, x);
    if b.action {
      var m := Msg(d.now + NonNeg(b.period), x);
      assert PerformLoopExecute(d, x, Nothing).queue == Insert(d.queue, m);
      InsertSameExcept(d.queue, m);
    }
  }

  /** A delivery to builder `x` changes no other builder's fields. */
  lemma ExecuteKeepsOthers(d: State, x: Id, id: Id)
    requires x != id
    ensures BuilderOf(ExecuteTask(d, x, Nothing), id) == BuilderOf(d, id)
  {
  }

  /** ... and records nothing about any other builder. */
  lemma ExecuteOwnUnchanged(d: State, x: Id, id: Id)
    requires x != id
    ensures Own(ExecuteTask(d, x, Nothing).trace, id) == Own(d.trace, id)
  {
    var r := ExecuteTask(d, x, Nothing);
    ExecuteAbout(d, x);
    assert NothingAbout(d, r, id);
    OwnUnchanged(d, r, id);
  }

  /** A delivery to another builder keeps the countdown where it was. */
  lemma SharedOther(s: State, id: Id, k: nat, t: nat, p: nat)
    requires CountingDown(s, id, k, t, p) && |s.queue| > 0 && s.queue[0].id != id
    ensures var r := Fire(s, Nothing);
            && CountingDown(r, id, k, t, p)
            && BuilderOf(r, id) == BuilderOf(s, id)
            && Own(r.trace, id) == Own(s.trace, id)
  {
    var x := s.queue[0].id;
    var d := Delivered(s);
    PendingHead(s, id, t);
    FireIsDelivery(s, Nothing);
    ExecuteSameExcept(d, x);
    ExecuteKeepsOthers(d, x, id);
    ExecuteOwnUnchanged(d, x, id);
    FireKeepsOrder(s, Nothing);
    assert s.queue == [s.queue[0]] + s.queue[1..];
  }

  /** Consuming the countdown's message at `t` and enqueueing the next at `t'`. */
  lemma ReinsertPending(q: seq<Msg>, id: Id, t: nat, t': nat)
    requires Pending(q, id, t) && |q| > 0 && q[0] == Msg(t, id)
    ensures Pending(Insert(q[1..], Msg(t', id)), id, t')
  {
    InsertMultiset(q[1..], Msg(t', id));
    assert q == [q[0]] + q[1..];
  }

  /** The countdown's own delivery with a count left: it shows `k - 1` at `t` and its
      next message is due a period later. */
  lemma SharedTick(s: State, id: Id, k: nat, t: nat, p: nat)
    requires CountingDown(s, id, k, t, p) && k > 0 && |s.queue| > 0 && s.queue[0].id == id
    ensures var r := Fire(s, Nothing);
            && CountingDown(r, id, k - 1, t + p, p)
            && BuilderOf(r, id).action == BuilderOf(s, id).action
            && Own(r.trace, id) == Own(s.trace, id) + [Ticked(id, k - 1, t)]
  {
    var r := Fire(s, Nothing);
    var b := BuilderOf(s, id);
    PendingHead(s, id, t);
    FireCountDownTick(s);
    assert DeliveredAt(s) == t;
    assert r.queue == Insert(s.queue[1..], Msg(t + p, id));
    ReinsertPending(s.queue, id, t, t + p);
    FireKeepsOrder(s, Nothing);
    assert BuilderOf(r, id) == b.(takeWhile := k - 1);
    assert r.trace == s.trace + [Ticked(id, k - 1, t)];
    OwnAppend(s.trace, [Ticked(id, k - 1, t)], id);
  }

  /** The countdown's delivery at zero: it completes at `t` and has nothing pending. */
  lemma SharedDone(s: State, id: Id, t: nat, p: nat)
    requires CountingDown(s, id, 0, t, p) && |s.queue| > 0 && s.queue[0].id == id
    ensures var r := Fire(s, Nothing);
            && Count(r.queue, id) == 0
            && BuilderOf(r, id) == BuilderOf(s, id)
            && Own(r.trace, id) == Own(s.trace, id) + Remaining(id, 0, t, p, BuilderOf(s, id).action)
  {
    var r := Fire(s, Nothing);
    var done := if BuilderOf(s, id).action then [Acted(id, t)] else [];
    PendingHead(s, id, t);
    FireCountDownDone(s);
    HasIffCount(r.queue, id);
    OwnAppend(s.trace, done, id);
  }

  lemma {:induction false} AfterSucc(t: nat, j: nat, p: nat)
    ensures After(t, j + 1, p) == After(t, j, p) + p
    decreases j
  {
    if j > 0 {
      AfterSucc(t + p, j - 1, p);
    }
  }

  /** Builder `id`'s events in `r` since `base` are what a lone countdown started with
      `bound` left and its first message due at `t0` would show so far: with a message
      still pending, the shown part and what remains add up to the whole; with none,
      all of it was shown. */
  ghost predicate Tracks(base: seq<Event>, r: State, id: Id, bound: nat, t0: nat, p: nat, a: bool)
  {
    var k := BuilderOf(r, id).takeWhile;
    && BuilderOf(r, id).action == a
    && base <= Own(r.trace, id)
    && (Count(r.queue, id) == 0 ==> Own(r.trace, id) == base + Remaining(id, bound, t0, p, a))
    && (Count(r.queue, id) > 0 ==>
          && 0 <= k <= bound
          && CountingDown(r, id, k, After(t0, bound - k, p), p)
          && Own(r.trace, id) + Remaining(id, k, After(t0, bound - k, p), p, a)
             == base + Remaining(id, bound, t0, p, a))
  }

  lemma TracksDormant(base: seq<Event>, r: State, id: Id, bound: nat, t0: nat, p: nat, a: bool)
    requires Tracks(base, r, id, bound, t0, p, a) && Count(r.queue, id) == 0
    ensures Tracks(base, Fire(r, Nothing), id, bound, t0, p, a)
  {
    var f := Fire(r, Nothing);
    FireDormant(r, id);
    OwnUnchanged(r, f, id);
    if |r.queue| > 0 {
      FireIsDelivery(r, Nothing);
      ExecuteKeepsOthers(Delivered(r), r.queue[0].id, id);
    }
  }

  lemma TracksOther(base: seq<Event>, r: State, id: Id, bound: nat, t0: nat, p: nat, a: bool)
    requires Tracks(base, r, id, bound, t0, p, a) && Count(r.queue, id) > 0
    requires |r.queue| > 0 && r.queue[0].id != id
    ensures Tracks(base, Fire(r, Nothing), id, bound, t0, p, a)
  {
    var k := BuilderOf(r, id).takeWhile;
    var t := After(t0, bound - k, p);
    var f := Fire(r, Nothing);
    SharedOther(r, id, k, t, p);
    PendingHead(f, id, t);
  }

  lemma RemainingStep(id: Id, k: nat, t: nat, p: nat, a: bool)
    requires k > 0
    ensures Remaining(id, k, t, p, a) == [Ticked(id, k - 1, t)] + Remaining(id, k - 1, t + p, p, a)
  {
  }

  lemma ShiftOne(x: seq<Event>, e: Event, rest: seq<Event>, whole: seq<Event>)
    requires x + ([e] + rest) == whole
    ensures (x + [e]) + rest == whole
  {
    assert (x + [e]) + rest == x + ([e] + rest);
  }

  /** A countdown state with a message pending is on track once its shown part and
      what remains add up to the whole. */
  lemma TracksPending(base: seq<Event>, f: State, id: Id, bound: nat, t0: nat, p: nat, a: bool,
                      k: nat, t: nat)
    requires BuilderOf(f, id).takeWhile == k <= bound && After(t0, bound - k, p) == t
    requires CountingDown(f, id, k, t, p) && BuilderOf(f, id).action == a
    requires base <= Own(f.trace, id)
    requires Own(f.trace, id) + Remaining(id, k, t, p, a) == base + Remaining(id, bound, t0, p, a)
    ensures Tracks(base, f, id, bound, t0, p, a)
  {
    PendingHead(f, id, t);
  }

  lemma TracksTick(base: seq<Event>, r: State, id: Id, bound: nat, t0: nat, p: nat, a: bool)
    requires Tracks(base, r, id, bound, t0, p, a) && Count(r.queue, id) > 0
    requires |r.queue| > 0 && r.queue[0].id == id && BuilderOf(r, id).takeWhile > 0
    ensures Tracks(base, Fire(r, Nothing), id, bound, t0, p, a)
  {
    var k: nat := BuilderOf(r, id).takeWhile;
    var j: nat := bound - k;
    var t := After(t0, j, p);
    var f := Fire(r, Nothing);
    var e := Ticked(id, k - 1, t);
    var rest := Remaining(id, k - 1, t + p, p, a);
    var whole := base + Remaining(id, bound, t0, p, a);
    SharedTick(r, id, k, t, p);
    AfterSucc(t0, j, p);
    assert bound - (k - 1) == j + 1;
    RemainingStep(id, k, t, p, a);
    ShiftOne(Own(r.trace, id), e, rest, whole);
    TracksPending(base, f, id, bound, t0, p, a, k - 1, t + p);
  }

  lemma TracksDone(base: seq<Event>, r: State, id: Id, bound: nat, t0: nat, p: nat, a: bool)
    requires Tracks(base, r, id, bound, t0, p, a) && Count(r.queue, id) > 0
    requires |r.queue| > 0 && r.queue[0].id == id && BuilderOf(r, id).takeWhile == 0
    ensures Tracks(base, Fire(r, Nothing), id, bound, t0, p, a)
  {
    var t := After(t0, bound, p);
    SharedDone(r, id, t, p);
  }

  /** Every delivery keeps a countdown's events on track, whatever else is queued. */
  lemma TracksFire(base: seq<Event>, r: State, id: Id, bound: nat, t0: nat, p: nat, a: bool)
    requires Tracks(base, r, id, bound, t0, p, a)
    ensures Tracks(base, Fire(r, Nothing), id, bound, t0, p, a)
  {
    if Count(r.queue, id) == 0 {
      TracksDormant(base, r, id, bound, t0, p, a);
    } else {
      var k := BuilderOf(r, id).takeWhile;
      PendingHead(r, id, After(t0, bound - k, p));
      if r.queue[0].id != id {
        TracksOther(base, r, id, bound, t0, p, a);
      } else if k > 0 {
        TracksTick(base, r, id, bound, t0, p, a);
      } else {
        TracksDone(base, r, id, bound, t0, p, a);
      }
    }
  }

  /** One more delivery at the end of a run. */
  lemma {:induction false} RunSnoc(s: State, n: nat)
    ensures Run(s, n + 1) == Fire(Run(s, n), Nothing)
    decreases n
  {
    if n > 0 {
      RunSnoc(Fire(s, Nothing), n - 1);
    }
  }

  lemma {:induction false} TracksRun(base: seq<Event>, s: State, id: Id, bound: nat, t0: nat, p: nat, a: bool, n: nat)
    requires Tracks(base, s, id, bound, t0, p, a)
    ensures Tracks(base, Run(s, n), id, bound, t0, p, a)
    decreases n
  {
    if n > 0 {
      TracksRun(base, s, id, bound, t0, p, a, n - 1);
      TracksFire(base, Run(s, n - 1), id, bound, t0, p, a);
      RunSnoc(s, n - 1);
    }
  }

  /** What tracking says about the events: a prefix of the whole, all of it once
      nothing of the countdown is pending. */
  lemma TracksShows(base: seq<Event>, r: State, id: Id, bound: nat, t0: nat, p: nat, a: bool)
    requires Tracks(base, r, id, bound, t0, p, a)
    ensures base <= Own(r.trace, id) <= base + Remaining(id, bound, t0, p, a)
    ensures Count(r.queue, id) == 0 ==> Own(r.trace, id) == base + Remaining(id, bound, t0, p, a)
  {
    if Count(r.queue, id) > 0 {
      var k := BuilderOf(r, id).takeWhile;
      var rest := Remaining(id, k, After(t0, bound - k, p), p, a);
      assert (Own(r.trace, id) + rest)[..|Own(r.trace, id)|] == Own(r.trace, id);
    }
  }

  /** A countdown just put in the counting state is on track, nothing shown yet. */
  lemma TracksFromCounting(r: State, id: Id, k: nat, t: nat, p: nat)
    requires CountingDown(r, id, k, t, p)
    ensures Tracks(Own(r.trace, id), r, id, k, t, p, BuilderOf(r, id).action)
  {
    PendingHead(r, id, t);
  }

  /** The first message of a builder with nothing pending. */
  lemma InsertPending(q: seq<Msg>, id: Id, t: nat)
    requires Count(q, id) == 0
    ensures Pending(Insert(q, Msg(t, id)), id, t)
  {
    NoneCounted(q, id);
    InsertMultiset(q, Msg(t, id));
  }

  /** `start` of a countdown with nothing of its own pending puts it in the counting
      state: clamped count and period, first message after the initial delay. */
  lemma StartCountingDown(s: State, id: Id)
    requires var b := BuilderOf(s, id);
             b.mode == Some(CountDown) && b.tag.Some? && b.unit.Some? && b.consumer
    requires Sorted(s.queue) && Count(s.queue, id) == 0
    ensures var b := BuilderOf(s, id);
            var c := Clamp(b);
            var r := Start(s, id);
            && CountingDown(r, id, NonNeg(c.takeWhile), s.now + c.initialDelay, NonNeg(c.period))
            && r.trace == s.trace + [Ticked(id, c.takeWhile, s.now)]
            && BuilderOf(r, id).action == b.action
  {
    var b := BuilderOf(s, id);
    var c := Clamp(b);
    var t := s.now + c.initialDelay;
    var r := Start(s, id);
    StartSends(s, id);
    StartRegisters(s, id);
    assert BuilderOf(r, id) == c;
    InsertPending(s.queue, id, t);
    assert Pending(r.queue, id, t);
  }

  /** `start` shows the count: one event about the countdown, the clamped count. */
  lemma StartOwn(s: State, id: Id)
    requires var b := BuilderOf(s, id);
             b.mode == Some(CountDown) && b.tag.Some? && b.unit.Some? && b.consumer
    ensures Own(Start(s, id).trace, id) == Own(s.trace, id) + [Ticked(id, Clamp(BuilderOf(s, id)).takeWhile, s.now)]
  {
    var e := Ticked(id, Clamp(BuilderOf(s, id)).takeWhile, s.now);
    StartSends(s, id);
    OwnAppend(s.trace, [e], id);
    assert [e][..0] == [];
  }

  /** From the counting state, any number of deliveries shows a prefix of what
      remains, and all of it once nothing of the countdown is pending. */
  lemma SharedFromCounting(r: State, id: Id, k: nat, t: nat, p: nat, n: nat)
    requires CountingDown(r, id, k, t, p)
    ensures var base := Own(r.trace, id);
            var full := base + Remaining(id, k, t, p, BuilderOf(r, id).action);
            var e := Run(r, n);
            && base <= Own(e.trace, id) <= full
            && (Count(e.queue, id) == 0 ==> Own(e.trace, id) == full)
  {
    var base := Own(r.trace, id);
    var a := BuilderOf(r, id).action;
    TracksFromCounting(r, id, k, t, p);
    TracksRun(base, r, id, k, t, p, a, n);
    TracksShows(base, Run(r, n), id, k, t, p, a);
  }

  /** What a countdown with fields `b` started at `now` shows running alone:
      the count at once, then one tick per period after the initial delay down to
      zero, then the completion if there is an action. */
  function LoneCountDown(id: Id, b: Builder, now: nat): seq<Event>
    requires b.unit.Some?
  {
    var c := Clamp(b);
    [Ticked(id, c.takeWhile, now)] + Remaining(id, c.takeWhile, now + c.initialDelay, c.period, b.action)
  }

  lemma LoneSplit(id: Id, b: Builder, now: nat, k: nat, t: nat, p: nat)
    requires b.unit.Some?
    requires var c := Clamp(b); c.takeWhile == k && c.period == p && now + c.initialDelay == t
    ensures LoneCountDown(id, b, now) == [Ticked(id, k, now)] + Remaining(id, k, t, p, b.action)
  {
  }

  /** The run-level bound restated over the events shown before a countdown state:
      `base` ends with the count shown at start and `lone` is that base followed by
      what remains. */
  lemma SharedFromShown(r: State, id: Id, k: nat, t: nat, p: nat, n: nat,
                        before: seq<Event>, first: Event, lone: seq<Event>)
    requires CountingDown(r, id, k, t, p)
    requires Own(r.trace, id) == before + [first]
    requires lone == before + [first] + Remaining(id, k, t, p, BuilderOf(r, id).action)
    ensures var o := Own(Run(r, n).trace, id);
            && before + [first] <= o <= lone
            && (Count(Run(r, n).queue, id) == 0 ==> o == lone)
  {
    SharedFromCounting(r, id, k, t, p, n);
  }

  /** A countdown started alongside other builders (the queue ordered and nothing of
      its own pending) shows its clamped count at once; after any number of
      deliveries its own events are a prefix of what it shows running alone, and all
      of it once nothing of the countdown is pending. */
  lemma CountDownSharedFromStart(s: State, id: Id, n: nat)
    requires var b := BuilderOf(s, id);
             b.mode == Some(CountDown) && b.tag.Some? && b.unit.Some? && b.consumer
    requires Sorted(s.queue) && Count(s.queue, id) == 0
    ensures var b := BuilderOf(s, id);
            var r := Run(Start(s, id), n);
            var lone := Own(s.trace, id) + LoneCountDown(id, b, s.now);
            && Own(s.trace, id) + [Ticked(id, NonNeg(b.takeWhile), s.now)] <= Own(r.trace, id) <= lone
            && (Count(r.queue, id) == 0 ==> Own(r.trace, id) == lone)
  {
    var b := BuilderOf(s, id);
    var c := Clamp(b);
    var k: nat := c.takeWhile;
    var p: nat := c.period;
    var t: nat := s.now + c.initialDelay;
    var before := Own(s.trace, id);
    var first := Ticked(id, k, s.now);
    var lone := before + LoneCountDown(id, b, s.now);
    StartCountingDown(s, id);
    StartOwn(s, id);
    LoneSplit(id, b, s.now, k, t, p);
    assert lone == before + [first] + Remaining(id, k, t, p, b.action);
    SharedFromShown(Start(s, id), id, k, t, p, n, before, first, lone);
  }

  /** The same for the Kotlin `start`. */
  lemma KCountDownSharedFromStart(s: State, id: Id, n: nat)
    requires var b := BuilderOf(s, id);
             b.mode == Some(CountDown) && b.tag.Some? && b.unit.Some? && b.consumer
    requires Sorted(s.queue) && Count(s.queue, id) == 0
    ensures var b := BuilderOf(s, id);
            var r := Run(KStart(s, id), n);
            var lone := Own(s.trace, id) + LoneCountDown(id, b, s.now);
            && Own(s.trace, id) + [Ticked(id, NonNeg(b.takeWhile), s.now)] <= Own(r.trace, id) <= lone
            && (Count(r.queue, id) == 0 ==> Own(r.trace, id) == lone)
  {
    KStartAgrees(s, id);
    CountDownSharedFromStart(s, id, n);
  }
}

=== FILE: timer.dfy ===
/** `HandlerTaskTimer` (the Java version): a registry from tag to builder over one
    message queue, and the builders' own `start`, `pause`, `resume`, `cancel` and
    `executeTask`. Everything runs on the main looper, so every operation is a
    transition of one immutable `State`. Callbacks are events appended to `trace`;
    a callback may call back into the timer's facade once, which `Reaction` records. */
module TaskTimer {
  import opened Optional
  import opened MessageQueue
  import opened TaskBuilder

  /** A tick consumer invoked with `value`, or a completion action run, at `at` ms. */
  datatype Event = Ticked(id: Id, value: int, at: nat) | Acted(id: Id, at: nat)

  /** What a callback does to the timer while it runs: nothing, or one facade call. */
  datatype Reaction =
    | Nothing
    | CancelTag(tag: Option<string>)
    | PauseTag(tag: Option<string>)
    | ResumeTag(tag: Option<string>)

  /** `builderTagsMap`, the fields of every builder object created so far, the
      handler's pending messages, the looper's uptime clock and the callback trace. */
  datatype State = State(
    tags: map<string, Id>,
    builders: map<Id, Builder>,
    queue: seq<Msg>,
    now: nat,
    trace: seq<Event>,
    nextId: Id)

  const Initial: State := State(map[], map[], [], 0, [], 0)

  /** The fields of builder `id`; an identity no builder was created under reads as a
      blank builder, which no operation does anything with. */
  function BuilderOf(s: State, id: Id): Builder
  {
    if id in s.builders then s.builders[id] else Blank
  }

  /** The callback `start` and the firings need: the tick consumer for a countdown,
      the action otherwise. */
  predicate HasRequiredCallback(b: Builder)
  {
    b.mode.Some? && (if b.mode.value == CountDown then b.consumer else b.action)
  }

  /** Every identity in use, whether as a builder, a tag's target or a pending
      message's builder, was handed out before `nextId`. */
  ghost predicate WellFormed(s: State)
  {
    && (forall x :: x in s.builders ==> x < s.nextId)
    && (forall t :: t in s.tags ==> s.tags[t] < s.nextId)
    && (forall x :: x >= s.nextId ==> Count(s.queue, x) == 0)
  }

  /** `newBuilder()`: a new builder object with every field unset. In a well-formed
      timer its identity is fresh: no builder, tag or message refers to it yet. */
  function NewBuilder(s: State): (r: (State, Id))
    ensures r.0.builders == s.builders[r.1 := Blank] && r.0.nextId > r.1
    ensures r.0.tags == s.tags && r.0.queue == s.queue && r.0.trace == s.trace && r.0.now == s.now
    ensures WellFormed(s) ==> && r.1 !in s.builders
                              && (forall t :: t in s.tags ==> s.tags[t] != r.1)
                              && !Has(s.queue, r.1)
                              && WellFormed(r.0)
  {
    HasIffCount(s.queue, s.nextId);
    (s.(builders := s.builders[s.nextId := Blank], nextId := s.nextId + 1), s.nextId)
  }

  /** A setter call on builder `id`. */
  function Configure(s: State, id: Id, op: Setter): State
  {
    s.(builders := s.builders[id := Apply(BuilderOf(s, id), op)])
  }

  /** Uptime passing on the main thread without a delivery. */
  function Elapse(s: State, t: nat): State
    requires t >= s.now
  {
    s.(now := t)
  }

  /** `sendMessageDelayed(obtainThis(), delay)`; the handler treats a negative delay as 0. */
  function SendDelayed(s: State, id: Id, delay: int): State
  {
    s.(queue := Insert(s.queue, Msg(s.now + NonNeg(delay), id)))
  }

  function Emit(s: State, e: Event): State
  {
    s.(trace := s.trace + [e])
  }

  /** `acceptTakeWhile()` from `start` or `resume`: the consumer sees the current count;
      with no consumer the call throws and is swallowed, so nothing is observed. */
  function Tick(s: State, id: Id): State
  {
    var b := BuilderOf(s, id);
    if b.consumer then Emit(s, Ticked(id, b.takeWhile, s.now)) else s
  }

  /** `Builder.pause()`: `removeCallbacksAndMessages(this)`. */
  function BuilderPause(s: State, id: Id): State
  {
    s.(queue := RemoveAll(s.queue, id))
  }

  /** `Builder.resume()`: only when nothing is pending, enqueue a message one period
      from now and, for a countdown, show the current count again. */
  function BuilderResume(s: State, id: Id): State
  {
    if Has(s.queue, id) then s
    else
      var s1 := SendDelayed(s, id, BuilderOf(s, id).period);
      if BuilderOf(s, id).mode == Some(CountDown) then Tick(s1, id) else s1
  }

  /** `Builder.cancel()`: unregister the builder's current tag, whichever builder that
      tag is mapped to, and drop this builder's pending messages. */
  function BuilderCancel(s: State, id: Id): State
  {
    var b := BuilderOf(s, id);
    var s1 := if b.tag.Some? then s.(tags := s.tags - {b.tag.value}) else s;
    s1.(queue := RemoveAll(s1.queue, id))
  }

  /** Facade `cancel(tag)`. */
  function Cancel(s: State, tag: Option<string>): State
  {
    if tag.None? || tag.value !in s.tags then s else BuilderCancel(s, s.tags[tag.value])
  }

  /** Facade `pause(tag)`. */
  function Pause(s: State, tag: Option<string>): State
  {
    if tag.None? || tag.value !in s.tags then s else BuilderPause(s, s.tags[tag.value])
  }

  /** Facade `resume(tag)`. */
  function Resume(s: State, tag: Option<string>): State
  {
    if tag.None? || tag.value !in s.tags then s else BuilderResume(s, s.tags[tag.value])
  }

  /** What a running callback does to the timer. */
  function React(s: State, re: Reaction): State
  {
    match re
    case Nothing => s
    case CancelTag(t) => Cancel(s, t)
    case PauseTag(t) => Pause(s, t)
    case ResumeTag(t) => Resume(s, t)
  }

  /** A callback invoked during a firing: record it, then let it react. */
  function Invoke(s: State, e: Event, re: Reaction): State
  {
    React(Emit(s, e), re)
  }

  /** The part of `start` after the tag is registered and the unit is known: clamp
      the fields and, only when the mode's callback is present, enqueue the first
      message after the initial delay (a countdown shows its count first). */
  function Launch(s: State, id: Id): State
    requires BuilderOf(s, id).unit.Some?
  {
    var c := Clamp(BuilderOf(s, id));
    var s1 := s.(builders := s.builders[id := c]);
    if !HasRequiredCallback(c) then s1
    else if c.mode.value == CountDown then SendDelayed(Tick(s1, id), id, c.initialDelay)
    else SendDelayed(s1, id, c.initialDelay)
  }

  /** `Builder.start()`. A null mode or tag returns at once. Otherwise the tag is
      registered before anything is checked; a null unit then throws from `toMillis`
      with nothing else done; otherwise the builder is launched. */
  function Start(s: State, id: Id): State
  {
    var b := BuilderOf(s, id);
    if b.mode.None? || b.tag.None? then s
    else
      var s1 := s.(tags := s.tags[b.tag.value := id]);
      if b.unit.None? then s1 else Launch(s1, id)
  }

  /** The calls of `start` that end in the `NullPointerException` of a null unit. */
  predicate StartThrows(s: State, id: Id)
  {
    var b := BuilderOf(s, id);
    b.mode.Some? && b.tag.Some? && b.unit.None?
  }

  /** `performActionExecute()`: run the action if there is one. */
  function PerformActionExecute(s: State, id: Id, re: Reaction): State
  {
    if BuilderOf(s, id).action then Invoke(s, Acted(id, s.now), re) else s
  }

  /** `performCountDown()`: with a count left, decrement it, show it and enqueue the
      next message a period later; at zero run the action and cancel. */
  function PerformCountDown(s: State, id: Id, re: Reaction): State
  {
    var b := BuilderOf(s, id);
    if !b.consumer then s
    else if b.takeWhile > 0 then
      var s1 := s.(builders := s.builders[id := b.(takeWhile := b.takeWhile - 1)]);
      var s2 := Invoke(s1, Ticked(id, b.takeWhile - 1, s.now), re);
      SendDelayed(s2, id, BuilderOf(s2, id).period)
    else
      BuilderCancel(PerformActionExecute(s, id, re), id)
  }

  /** `performLoopExecute()`: enqueue the next message a period later, then run the action. */
  function PerformLoopExecute(s: State, id: Id, re: Reaction): State
  {
    if !BuilderOf(s, id).action then s
    else PerformActionExecute(SendDelayed(s, id, BuilderOf(s, id).period), id, re)
  }

  /** `executeTask()`, the step of the builder's mode. */
  function ExecuteTask(s: State, id: Id, re: Reaction): State
  {
    match BuilderOf(s, id).mode
    case None => s
    case Some(CountDown) => PerformCountDown(s, id, re)
    case Some(LoopExecute) => PerformLoopExecute(s, id, re)
    case Some(DelayExecute) => BuilderCancel(PerformActionExecute(s, id, re), id)
  }

  /** The looper delivers the earliest pending message to `callback.handleMessage`,
      waiting for its due time if it is not yet due. */
  function Fire(s: State, re: Reaction): State
  {
    if |s.queue| == 0 then s
    else
      var m := s.queue[0];
      ExecuteTask(s.(queue := s.queue[1..], now := if s.now < m.due then m.due else s.now), m.id, re)
  }
}

=== FILE: units.dfy ===
/** `java.util.concurrent.TimeUnit`, reduced to what `Builder.start` uses of it:
    conversion of a duration to milliseconds. */
module Units {

  datatype TimeUnit = Nanoseconds | Microseconds | Milliseconds | Seconds | Minutes | Hours | Days

  /** Java's `/` on `long`, which truncates toward zero (Dafny's `/` is Euclidean). */
  function Quot(d: int, k: int): int
    requires k > 0
  {
    if d >= 0 then d / k else -((-d) / k)
  }

  /** Number of milliseconds in one `u`, for the units at least as coarse as a millisecond. */
  function Factor(u: TimeUnit): (f: nat)
    requires u != Nanoseconds && u != Microseconds
    ensures f >= 1
  {
    match u
    case Milliseconds => 1
    case Seconds => 1000
    case Minutes => 60000
    case Hours => 3600000
    case Days => 86400000
  }

  /** `u.toMillis(d)`: finer units divide (truncating), coarser units multiply.
      The saturation at `Long.MIN_VALUE`/`Long.MAX_VALUE` is not modelled. */
  function ToMillis(u: TimeUnit, d: int): (ms: int)
    ensures d >= 0 ==> ms >= 0
    ensures d <= 0 ==> ms <= 0
    ensures u == Milliseconds ==> ms == d
  {
    match u
    case Nanoseconds => Quot(d, 1000000)
    case Microseconds => Quot(d, 1000)
    case _ => d * Factor(u)
  }
}

=== FILE: wellformed.dfy ===
/** Identities stay well formed: every operation keeps each builder, tag target and
    pending message below `nextId`, so `newBuilder` never reuses a live identity. */
module TimerWellFormed {
  import opened Optional
  import opened MessageQueue
  import opened TaskBuilder
  import opened TaskTimer
  import opened TimerRuns
  import opened KotlinTimer

  lemma InitialWellFormed()
    ensures WellFormed(Initial)
  {
  }

  /** A setter call on a builder `newBuilder` handed out. */
  lemma ConfigureKeepsWellFormed(s: State, id: Id, op: Setter)
    requires WellFormed(s) && id < s.nextId
    ensures WellFormed(Configure(s, id, op))
  {
  }

  lemma ElapseKeepsWellFormed(s: State, t: nat)
    requires WellFormed(s) && t >= s.now
    ensures WellFormed(Elapse(s, t))
  {
  }

  lemma SendDelayedKeepsWellFormed(s: State, id: Id, delay: int)
    requires WellFormed(s) && id < s.nextId
    ensures WellFormed(SendDelayed(s, id, delay))
  {
    var m := Msg(s.now + NonNeg(delay), id);
    var r := SendDelayed(s, id, delay);
    assert r.queue == Insert(s.queue, m);
    InsertCounts(s.queue, m);
    forall x | x >= s.nextId
      ensures Count(r.queue, x) == 0
    {
      assert x != m.id;
    }
  }

  lemma PauseKeepsWellFormed(s: State, id: Id)
    requires WellFormed(s)
    ensures WellFormed(BuilderPause(s, id))
  {
    RemoveAllCounts(s.queue, id);
  }

  lemma CancelKeepsWellFormed(s: State, id: Id)
    requires WellFormed(s)
    ensures WellFormed(BuilderCancel(s, id))
  {
    var b := BuilderOf(s, id);
    var s1 := if b.tag.Some? then s.(tags := s.tags - {b.tag.value}) else s;
    RemoveAllCounts(s1.queue, id);
  }

  lemma ResumeKeepsWellFormed(s: State, id: Id)
    requires WellFormed(s) && id < s.nextId
    ensures WellFormed(BuilderResume(s, id))
  {
    if !Has(s.queue, id) {
      SendDelayedKeepsWellFormed(s, id, BuilderOf(s, id).period);
    }
  }

  lemma ReactKeepsWellFormed(s: State, re: Reaction)
    requires WellFormed(s)
    ensures WellFormed(React(s, re))
  {
    match re
    case Nothing =>
    case CancelTag(t) =>
      if t.Some? && t.value in s.tags {
        CancelKeepsWellFormed(s, s.tags[t.value]);
      }
    case PauseTag(t) =>
      if t.Some? && t.value in s.tags {
        PauseKeepsWellFormed(s, s.tags[t.value]);
      }
    case ResumeTag(t) =>
      if t.Some? && t.value in s.tags {
        ResumeKeepsWellFormed(s, s.tags[t.value]);
      }
  }

  lemma ActionKeepsWellFormed(s: State, id: Id, re: Reaction)
    requires WellFormed(s)
    ensures WellFormed(PerformActionExecute(s, id, re))
  {
    if BuilderOf(s, id).action {
      ReactKeepsWellFormed(Emit(s, Acted(id, s.now)), re);
    }
  }

  lemma ExecuteKeepsWellFormed(s: State, id: Id, re: Reaction)
    requires WellFormed(s) && id < s.nextId
    ensures WellFormed(ExecuteTask(s, id, re))
  {
    var b := BuilderOf(s, id);
    match b.mode
    case None =>
    case Some(CountDown) =>
      if b.consumer && b.takeWhile > 0 {
        TickKeepsWellFormed(s, id, re);
      } else if b.consumer {
        ActionKeepsWellFormed(s, id, re);
        CancelKeepsWellFormed(PerformActionExecute(s, id, re), id);
      }
    case Some(LoopExecute) =>
      if b.action {
        SendDelayedKeepsWellFormed(s, id, b.period);
        ActionKeepsWellFormed(SendDelayed(s, id, b.period), id, re);
      }
    case Some(DelayExecute) =>
      ActionKeepsWellFormed(s, id, re);
      CancelKeepsWellFormed(PerformActionExecute(s, id, re), id);
  }

  lemma TickKeepsWellFormed(s: State, id: Id, re: Reaction)
    requires WellFormed(s) && id < s.nextId
    requires var b := BuilderOf(s, id); b.consumer && b.takeWhile > 0
    ensures WellFormed(PerformCountDown(s, id, re))
  {
    var b := BuilderOf(s, id);
    var s1 := s.(builders := s.builders[id := b.(takeWhile := b.takeWhile - 1)]);
    var e := Emit(s1, Ticked(id, b.takeWhile - 1, s.now));
    assert WellFormed(e);
    ReactKeepsWellFormed(e, re);
    var r := React(e, re);
    assert PerformCountDown(s, id, re) == SendDelayed(r, id, BuilderOf(r, id).period);
    SendDelayedKeepsWellFormed(r, id, BuilderOf(r, id).period);
  }

  /** Whatever the callbacks do, a delivery keeps the timer well formed. */
  lemma FireKeepsWellFormed(s: State, re: Reaction)
    requires WellFormed(s)
    ensures WellFormed(Fire(s, re))
  {
    if |s.queue| > 0 {
      var m := s.queue[0];
      var d := s.(queue := s.queue[1..], now := if s.now < m.due then m.due else s.now);
      assert Count(s.queue, m.id) > 0;
      assert WellFormed(d) by {
        forall x | x >= s.nextId
          ensures Count(d.queue, x) == 0
        {
          assert Count(s.queue, x) == 0;
        }
      }
      ExecuteKeepsWellFormed(d, m.id, re);
      assert Fire(s, re) == ExecuteTask(d, m.id, re);
    }
  }

  lemma {:induction false} RunKeepsWellFormed(s: State, n: nat)
    requires WellFormed(s)
    ensures WellFormed(Run(s, n))
    decreases n
  {
    if n > 0 {
      FireKeepsWellFormed(s, Nothing);
      RunKeepsWellFormed(Fire(s, Nothing), n - 1);
    }
  }

  lemma StartKeepsWellFormed(s: State, id: Id)
    requires WellFormed(s)
    ensures WellFormed(Start(s, id))
  {
    var b := BuilderOf(s, id);
    if b.mode.Some? && b.tag.Some? {
      assert id in s.builders;
      var s1 := s.(tags := s.tags[b.tag.value := id]);
      if b.unit.Some? {
        var c := Clamp(b);
        var s2 := s1.(builders := s1.builders[id := c]);
        if HasRequiredCallback(c) {
          if c.mode.value == CountDown {
            SendDelayedKeepsWellFormed(Tick(s2, id), id, c.initialDelay);
          } else {
            SendDelayedKeepsWellFormed(s2, id, c.initialDelay);
          }
        }
      }
    }
  }

  lemma KStartKeepsWellFormed(s: State, id: Id)
    requires WellFormed(s)
    ensures WellFormed(KStart(s, id))
  {
    KStartAgrees(s, id);
    StartKeepsWellFormed(s, id);
  }

  lemma FacadeKeepsWellFormed(s: State, tag: Option<string>)
    requires WellFormed(s)
    ensures WellFormed(Cancel(s, tag)) && WellFormed(Pause(s, tag)) && WellFormed(Resume(s, tag))
  {
    ReactKeepsWellFormed(s, CancelTag(tag));
    ReactKeepsWellFormed(s, PauseTag(tag));
    ReactKeepsWellFormed(s, ResumeTag(tag));
  }

  /** So in any timer reached from `Initial`, two `newBuilder` calls never share an
      identity and a new builder never takes over a registered tag or a pending message. */
  lemma NewBuilderIsFresh(s: State)
    requires WellFormed(s)
    ensures var (r, id) := NewBuilder(s);
            && id !in s.builders && !Has(s.queue, id)
            && (forall t :: t in s.tags ==> s.tags[t] != id)
            && WellFormed(r)
            && var (r2, id2) := NewBuilder(r); id2 != id
  {
  }
}
